=== FILE: README.md ===
# Java Native Interface bindings: modified UTF-8 codec and reference protocol

A Dafny model of the core of a small set of Rust bindings to the Java
Native Interface (JNI). It has two parts.

- **The modified UTF-8 codec** (`lib/j_chars.rs`). `JavaChars::new` turns a
  host string into the NUL-terminated byte buffer the virtual machine
  expects. `JavaChars::to_string` turns such a buffer back into the host's
  UTF-8. The model follows the code byte for byte. Its one deliberate
  choice: the `u8` addition at line 74 wraps modulo 256, which is what a
  release build does; a debug build panics there instead. For the Basic
  Multilingual Plane (BMP) the round trip is proved. For supplementary
  characters, the code as written is shown not to round trip (see
  Findings). A corrected codec following section 4.4.7 of the Java Virtual
  Machine Specification is proved to round trip for every string.
- **The exception-token and reference protocol** (`lib/jni.rs`).
  - A `Capability` says no exception is pending. An `Exception` says one is.
    Both tokens are threaded through every wrapper.
  - Handles carry a tag (`Local`, `Global`, `Weak`) that decides which
    foreign delete call releases them.
  - The invocation side covers creating the virtual machine, getting an
    environment (attaching the thread if needed), and destroying the
    machine.

The virtual machine is a value (`Jni.Runtime`). It records:

- the pending-exception flag;
- three multisets of live references (local, global, weak);
- a counter for fresh references;
- a misuse flag, raised when a delete names a reference its table does not hold;
- the epoch of the one live token;
- a log of foreign calls.

Every foreign call is a function from one runtime to the next. What the
real machine decides is a parameter: whether a class is found, the status
code a call returns.

Rust moves the tokens linearly; Dafny does not. The model uses epochs
instead:

- consuming a token requires its epoch to be the current one;
- minting a token advances the epoch;
- handing the same token back keeps the epoch.

Files:

- `utf8.dfy`: Unicode scalar values and their RFC 3629 encoding. This is the host's string form and the reference for the codec.
- `j_chars.dfy`: the codec as written, with its proofs.
- `j_chars_fixed.dfy`: the corrected surrogate-pair codec.
- `native.dfy`: the `JniVersion` and `JniError` enumerations, and `isize`-to-`jint` truncation.
- `jni.dfy`: tokens, handles, the runtime, and the `JavaEnv`/`JObject` wrappers.
- `jni_vm.dfy`: start-up arguments, `JavaVM::new`, `get_env_gen`, destruction.
- `wrappers.dfy`: `Option`.

## Model

Small functions without a contract of their own are stated through the rows that cite their lines: `JChars.AsVec` and `JChars.FromRawVec` through `JChars.RawVecRoundTrip`, `JavaVm.Marshal` and `JavaVm.Unmarshal` through `JavaVm.MarshalArgs` and `JavaVm.MarshalRoundTrip`, `Jni.PromotedTag` through `Jni.Promote`, `Jni.MakeGlobal` and `Jni.MakeWeak`.

| member | source | states |
|---|---|---|
| JChars.EncodeChar | lib/j_chars.rs:11-33 | output length per character: 2 for U+0000 and U+0080..U+07FF, 1 for U+0001..U+007F, 3 for U+0800..U+FFFF, 7 for supplementary characters. No output byte is zero. U+0000 becomes C0 80. U+0001..U+FFFF become exactly their RFC 3629 bytes. The `unreachable!` arm cannot be reached, by the type of a character |
| JChars.TwoByteArm | lib/j_chars.rs:12-15 | the two-byte arm emits two non-zero bytes; for U+0080..U+07FF they are the RFC 3629 encoding |
| JChars.ThreeByteArm | lib/j_chars.rs:17-21 | the three-byte arm emits the RFC 3629 encoding of U+0800..U+FFFF, with no zero byte |
| JChars.SurrogateArm | lib/j_chars.rs:22-31 | the supplementary arm emits seven non-zero bytes: ED, a byte in A0..AF, a byte, then ED twice |
| JChars.TwoByteArmAgrees | lib/j_chars.rs:12-15 | the shift-and-mask bytes equal the division-and-remainder bytes of RFC 3629 |
| JChars.ThreeByteArmAgrees | lib/j_chars.rs:17-21 | the same agreement for three-byte characters |
| JChars.EncodeChars | lib/j_chars.rs:8-34 | the encoding of a whole string contains no zero byte |
| JChars.EncodeCharsAppend | lib/j_chars.rs:9-34 | the encoder works character by character: the encoding of a concatenation is the concatenation of the encodings |
| JChars.New | lib/j_chars.rs:7-37 | the buffer ends with a NUL byte and has no other NUL byte |
| JChars.NewEmpty | lib/j_chars.rs:35-36 | the empty string becomes the single byte 00 |
| JChars.RawVecRoundTrip | lib/j_chars.rs:121-129 | `as_vec` and `from_raw_vec` are inverse and keep the bytes unchanged |
| JChars.DecodeGroup | lib/j_chars.rs:42-118 | one loop iteration consumes between 1 and all remaining bytes and outputs no more bytes than it consumed |
| JChars.Decode | lib/j_chars.rs:38-120 | a decoded result is strictly shorter than the buffer, since the terminator produces nothing |
| JChars.ToString | lib/j_chars.rs:38-120 | the cursor loop computes `Decode` of the buffer: a panic on a bad lead byte or on reading past the end, `None` on a rejected surrogate, otherwise the bytes pushed |
| JChars.DecodeTerminator | lib/j_chars.rs:45-47 | a buffer starting with 00 decodes to the empty string whatever follows |
| JChars.DecodeIgnoresTrailing | lib/j_chars.rs:41-47 | if decoding a buffer does not panic, appending bytes does not change the result |
| JChars.GroupIgnoresTrailing | lib/j_chars.rs:42-118 | an iteration that does not read past the end is unaffected by what follows |
| JChars.DecodeCopiesThrough | lib/j_chars.rs:48-63 | groups led by 01..7F, by C0 not followed by 80, by C1..DF, by E0..EF other than ED, or by ED not followed by 101xxxxx are copied through unchanged |
| JChars.DecodeOverlongNul | lib/j_chars.rs:49-58 | C0 80 decodes to one 00 byte |
| JChars.DecodePanicsOnBadLead | lib/j_chars.rs:117 | a lead byte in 80..BF or F0..FF panics, whatever follows |
| JChars.DecodeSurrogateChecks | lib/j_chars.rs:67-92 | the result is `None` for ED followed by B0..BF, for a high-surrogate group not followed by ED, and for a low-surrogate byte that is not a continuation byte; a group passing all three checks consumes six bytes and outputs four |
| JChars.ContinuationMask | lib/j_chars.rs:88-89 | the check `(0x3F \| b) & 0xF0 == 0xB0` holds exactly when `b` is a continuation byte |
| JChars.GroupOfBmpChar | lib/j_chars.rs:48-116 | the encoding of a BMP character is read back as one group that yields its UTF-8 bytes |
| JChars.DecodeBmpChar | lib/j_chars.rs:11-116 | decoding a BMP character's encoding followed by anything yields its UTF-8 bytes, then the decoding of the rest |
| JChars.DecodeBmpChars | lib/j_chars.rs:38-116 | the same for a whole BMP string |
| JChars.RoundTripBmp | lib/j_chars.rs:7-120 | for every string of BMP characters, U+0000 included, decoding the encoding gives exactly its UTF-8 bytes |
| JChars.AsciiRoundTrip | tests/main.rs:26-29 | an ASCII string such as "Hello, world!" encodes to its own bytes plus the terminator and decodes back to them |
| JChars.SupplementaryNotDecodable | lib/j_chars.rs:22-31 | the seven bytes emitted for a supplementary character always decode to `None` |
| JChars.SupplementaryBreaksRoundTrip | lib/j_chars.rs:7-120 | a string whose first non-BMP character is supplementary decodes to `None`, whatever surrounds that character |
| JChars.SurrogateGroupLeadByte | lib/j_chars.rs:74 | the first byte output for a surrogate pair is 19..1C (the sum wraps), never a UTF-8 four-byte lead F0..F4 |
| JChars.JvmsSurrogatePairMisdecoded | lib/j_chars.rs:64-104 | the standard six-byte form of U+10000 decodes to 19 90 BF 80 instead of F0 90 80 80 |
| JCharsFixed.SurrogatePair | lib/j_chars.rs:22-31 | the corrected arm emits six bytes: ED 1010xxxx 10xxxxxx ED 1011xxxx 10xxxxxx, none zero |
| JCharsFixed.EncodeChar | lib/j_chars.rs:11-33 | the corrected encoder: BMP lengths unchanged, 6 bytes for supplementary characters, no zero byte |
| JCharsFixed.EncodeChars | lib/j_chars.rs:8-34 | the corrected encoding of a string has no zero byte, and for a string of BMP characters it is byte for byte the as-written encoding |
| JCharsFixed.New | lib/j_chars.rs:7-37 | the corrected buffer ends with its only NUL byte |
| JCharsFixed.PairScalar | lib/j_chars.rs:74-96 | the scalar value rebuilt from the twenty payload bits is supplementary |
| JCharsFixed.PairGroup | lib/j_chars.rs:64-104 | an accepted surrogate pair consumes six bytes and outputs four |
| JCharsFixed.DecodeGroup | lib/j_chars.rs:42-118 | the corrected iteration consumes between 1 and all remaining bytes |
| JCharsFixed.Decode | lib/j_chars.rs:38-120 | the corrected `to_string`: a decoded result is strictly shorter than the buffer, and on a buffer where no surrogate pair (ED 101xxxxx) starts it is exactly the as-written decoder's result |
| JCharsFixed.PairScalarInverts | lib/j_chars.rs:22-31 | the payload bits of the six-byte form give back the character |
| JCharsFixed.GroupOfSurrogatePair | lib/j_chars.rs:64-104 | the corrected decoder reads the six-byte form as one group yielding the character's four UTF-8 bytes |
| JCharsFixed.GroupOfBmpChar | lib/j_chars.rs:48-116 | the corrected decoder reads BMP encodings as the original does |
| JCharsFixed.DecodeChar | lib/j_chars.rs:11-116 | each character's corrected encoding decodes to its UTF-8 bytes, then the decoding of the rest |
| JCharsFixed.DecodeChars | lib/j_chars.rs:38-116 | the same for every string |
| JCharsFixed.RoundTrip | lib/j_chars.rs:7-120 | for every host string, decoding the corrected encoding gives exactly its UTF-8 bytes |
| Native.VersionOrderMatchesCodes | lib/native.rs:57-70 | the derived order of versions is the order of their codes; codes are distinct and lie between the minimum and maximum version |
| Native.ErrorOfCode | lib/native.rs:72-82 | a `jint` names a status exactly when it is in -6..0, and then it is that status's code |
| Native.ErrorCodeRoundTrip | lib/native.rs:72-82 | code and status correspond one to one; only `JNI_OK` is zero and every failure is negative |
| Native.ToJint | lib/jni.rs:474 | `as jint` yields a 32-bit value congruent to its argument modulo 2^32 |
| Native.ToJintIdentity | lib/jni.rs:472-474 | the cast changes exactly the values outside the 32-bit range |
| Jni.CheckException | lib/jni.rs:510-514 | `exception_check` reports the pending flag and changes nothing but the call log |
| Jni.FromJobject | lib/jni.rs:630-636 | adopts the pointer as a `Local` handle of the wrapper's kind |
| Jni.FromPartsType | lib/jni.rs:642-652 | `Err` exactly when an exception is pending; otherwise a handle with exactly the requested tag and the same capability; the token returned is always sound; one `ExceptionCheck` call and nothing else |
| Jni.FromParts | lib/jni.rs:638-640 | `from_parts_type` with the tag `Local` |
| Jni.FromUnlessNull | lib/jni.rs:654-664 | `Err` exactly when the pointer is null; otherwise a `Local` handle with the same capability and the runtime untouched; no foreign call |
| Jni.FromUnlessNullSound | lib/jni.rs:654-664 | its `Exception` is sound exactly when the null came with a pending exception |
| Jni.IncRef | lib/jni.rs:537-550 | calls exactly the new-reference function matching the tag; a non-null result is a fresh reference that joins that table only; null for a null handle or a refused call, with every table unchanged; only a refused `NewWeakGlobalRef` leaves an exception pending |
| Jni.DecRef | lib/jni.rs:552-565 | calls exactly the delete matching the tag; removes one occurrence from that table, and leaves it unchanged for a null or unheld reference; the other two tables and the reference counter are unchanged; misuse exactly when the reference is not in that table |
| Jni.Drop | lib/jni.rs:611-615 | dropping a wrapper calls the delete matching its tag, removes one occurrence of a held reference from that table and leaves it unchanged otherwise; the other tables are left alone |
| Jni.ArrayDrop | lib/jni.rs:879-894 | the separately written `Drop` of `JavaArray` does the same as `Drop` |
| Jni.IncThenDecRestores | lib/jni.rs:537-565 | `inc_ref` followed by `dec_ref` of the new reference leaves the three tables as they were, without misuse |
| Jni.DropOfNullChangesNothing | lib/jni.rs:611-615 | dropping a null handle changes no table and raises no misuse |
| Jni.DropRemovesFromItsTableOnly | lib/jni.rs:552-565 | dropping a live handle removes exactly one occurrence of its reference from its own table and raises no misuse |
| Jni.Promote | lib/jni.rs:667-679 | `global`/`weak` as written: the new reference is in the global/weak table; the handle is tagged `Global`/`Weak` for the `impl_jobject!` kinds but `Local` for arrays; `Err` exactly when an exception was pending or the new-reference call threw (a refused `NewWeakGlobalRef`); the token is sound |
| Jni.MakeGlobal | lib/jni.rs:667-672 | `global` tags the handle `Global`, except for arrays which are tagged `Local`; the reference is in the global table |
| Jni.MakeWeak | lib/jni.rs:674-679 | `weak` tags the handle `Weak`, except for arrays which are tagged `Local`; the reference is in the weak table |
| Jni.ArrayPromoteThenDropLeaks | lib/jni.rs:959-965 | an array promoted to global or weak and then dropped is released with `DeleteLocalRef`: the reference stays in the global/weak table and the runtime sees a misuse |
| Jni.PromoteFixed | lib/jni.rs:959-965 | corrected `global`/`weak`: every kind, arrays included, is tagged with the table its reference was created in; `Err` exactly as for `Promote` |
| Jni.PromoteAgreesOffArrays | lib/jni.rs:667-679 | for every `impl_jobject!` kind, the as-written `global`/`weak` is the corrected one |
| Jni.PromoteFixedThenDropRestores | lib/jni.rs:959-965 | with the corrected tag, promoting and then dropping leaves every table as it was, without misuse; promotion fails only when a refused `NewWeakGlobalRef` throws, and then no table has changed |
| Jni.ThrowObject | lib/jni.rs:374-378 | consumes the capability and always returns an `Exception`; the flag is true exactly when `Throw` returned `JNI_OK`; the token is sound exactly then |
| Jni.ThrowNewObject | lib/jni.rs:380-385 | the same for `ThrowNew` with a class and a modified UTF-8 message |
| Jni.ClearException | lib/jni.rs:408-413 | consumes the `Exception`, clears the pending flag, and returns a fresh sound `Capability`; the tables are unchanged |
| Jni.NewLocalHandlesAreFresh | lib/jni.rs:351-358 | the handle `find_class` or `alloc_object` returns holds a reference no table held before the call |
| Jni.ThrowThenClear | lib/jni.rs:372-413 | a successful throw gives a sound `Exception`; clearing it gives a sound capability different from the consumed one, over the same tables |
| Jni.EnsureCapacity | lib/jni.rs:472-480 | `Ok` with the same capability exactly when the call returned `JNI_OK`, `Err` otherwise; the capacity is passed truncated to `jint`; the token is sound |
| Jni.FindClassByName | lib/jni.rs:351-358 | `Ok` exactly when the class is found, with a fresh local class handle and the same capability; on `Err` the local table is unchanged; the global and weak tables are never touched; the token is sound |
| Jni.AllocObjectOf | lib/jni.rs:482-488 | `Ok` exactly when the object is allocated, with a fresh local object handle and the same capability; on `Err` the local table is unchanged; the global and weak tables are never touched; the token is sound |
| JavaVm.NewOptionExtra | lib/jni.rs:110-115 | the option keeps the given string and extra-info pointer |
| JavaVm.NewOption | lib/jni.rs:105-107 | the option keeps the string, with a null extra-info pointer |
| JavaVm.OptionEqualsOnlyItsString | lib/jni.rs:118-128 | an option compares equal to a string, with the option on either side, exactly when its option string is that string, whatever its extra information |
| JavaVm.OptionConstructorExamples | lib/jni.rs:974-981 | for "", "-Xcheck:jni" and "a", the option has a null extra pointer and equals its string |
| JavaVm.NewInitArgs | lib/jni.rs:148-154 | the arguments keep the version, the flag, and the options in order |
| JavaVm.InitArgsConstructorExample | lib/jni.rs:984-995 | the arguments built in the unit test have version 1.6, the flag false, and the two options in order |
| JavaVm.NewCString | lib/jni.rs:198 | `CString::new` fails exactly when the string contains NUL |
| JavaVm.MarshalArgs | lib/jni.rs:195-213 | the conversion loop panics exactly when some option string contains NUL; otherwise `nOptions` is the option count cast to `jint`, and every option's string and extra pointer are passed in order |
| JavaVm.MarshalRoundTrip | lib/jni.rs:197-213 | for fewer than 2^31 options without NUL, the machine reads back exactly the version, the options in order, and the flag |
| JavaVm.InitialRuntime | lib/jni.rs:220-227 | a fresh machine has no pending exception, no misuse, empty tables and an empty call log, so the capability `JavaVM::new` returns is sound |
| JavaVm.NewVm | lib/jni.rs:190-231 | panics exactly when an option contains NUL; `Ok` with a sound capability exactly when `JNI_CreateJavaVM` returns `JNI_OK`; otherwise `Err` with that exact code; the machine records the requested version and name; one `JNI_CreateJavaVM` call with the marshalled arguments |
| JavaVm.NewVmExample | lib/jni.rs:1002-1010 | the machine of the unit test reports version 1.6 |
| JavaVm.GetEnvGen | lib/jni.rs:258-283 | `GetEnv` OK gives the environment without attaching; detached gives exactly one attach call, whose code is returned unchanged on failure; any other code is returned unchanged; the thread is attached afterwards exactly when it was, or the attach succeeded; an environment comes back only for an attached thread; an attached thread makes no attach call. `GetEnv` is taken to report the attach state truthfully |
| JavaVm.GetEnvGenAttachesAtMostOnce | lib/jni.rs:258-283 | the number of attach calls is 1 when `GetEnv` said detached and 0 otherwise, so never for an attached thread; an environment comes back exactly when `GetEnv` or the attach succeeded |
| JavaVm.DestroyVm | lib/jni.rs:285-293 | a null machine returns `JNI_OK` with no call; otherwise one `DestroyJavaVM`, its code returned, and the pointer nulled |
| JavaVm.DestroyIdempotent | lib/jni.rs:285-293 | a second destruction returns `JNI_OK`, calls nothing, and changes nothing |
| JavaVm.DropVm | lib/jni.rs:296-305 | dropping panics exactly when there was a machine and `DestroyJavaVM` did not return `JNI_OK` |
| JavaVm.DropAfterDestroyIsQuiet | lib/jni.rs:285-305 | dropping a machine already destroyed never panics and calls nothing |

## Left out

- The real virtual machine behind each foreign call. Class loading, garbage collection, method calls and string storage are not modelled. Each call's outcome is a parameter, constrained only as the JNI specification states:
  - `FindClass` and `AllocObject` return null exactly when they throw;
  - `EnsureLocalCapacity` throws on failure;
  - `Throw`/`ThrowNew` leave an exception pending on success;
  - `NewWeakGlobalRef` throws when it runs out of memory, while `NewLocalRef` and `NewGlobalRef` only return null;
  - `GetEnv` answers `JNI_OK` only for an attached thread and `JNI_EDETACHED` only for a detached one.
- `Capability::new` and `Exception::new` are public, so Rust code can forge a token. The model mints tokens only where the bindings do; a forged token is outside it.
- `monitor_enter` and `monitor_exit`: blocking concurrency primitives.
- `fatal_error`: it ends the process.
- `JavaString::{new, len, size, chars, to_str, region}` and `JavaStringChars`: raw-pointer plumbing over the `GetStringUTF*` calls.
- `define_class`, `get_super_class`, `is_assignable_from`, `exception_occured`, `exception_describe`, `push_local_frame`, `pop_local_frame`, `is_same_object`, `is_null`, `get_class`, `as_jobject`, `is_instance_of`, `is_same`, `version`, `get_env`, `get_env_daemon`, `detach_current_thread`, `JavaVMAttachArgs`: outside the core modelled here. `get_env` and `get_env_daemon` are `GetEnvGen` with `AttachCurrentThread` and `AttachCurrentThreadAsDaemon` respectively.
- Lifetimes, `PhantomData` and thread confinement. The borrow checker enforces these (for example, no environment is used after its machine is destroyed), not the code.
- JavaVm.GetEnvGen: records the thread name passed to the attach call as the string itself. The source passes `name.as_ptr()` of a Rust `String`, which has no NUL terminator, so the machine may read past its end. Raw memory is not modelled.
- JavaVm.NewVm: the virtual machine pointer is a parameter, and no check is made that it is non-null on success.
- JChars.DecodeGroup: models a `u8` addition that overflows (line 74) as wrapping modulo 256, as in a release build. A debug build panics there instead, which would turn every surrogate-pair decode into a panic.
- The host string type: the model's `Utf8.Text` is a sequence of Unicode scalar values, the same set as Rust's `char`. `String::from_utf8_unchecked` at line 46 is modelled as returning the pushed bytes, valid UTF-8 or not.
- Floating point, `lib/lib.rs`, `build.rs`, and `tests/main.rs` apart from its ASCII round trip (lines 26-29).

## Findings

| source | as written | input that shows it | evidently intended | confidence | as-written member | corrected member |
|---|---|---|---|---|---|---|
| lib/j_chars.rs:22-31 | a supplementary character is encoded in seven bytes: ED is pushed twice, and the low-surrogate marker is A0 rather than B0 | U+10000 encodes to ED A0 80 ED ED A0 80, which the decoder rejects with `None` | the six-byte surrogate pair of section 4.4.7 of the Java Virtual Machine Specification, ED A0 80 ED B0 80, which decodes back to F0 90 80 80 | high, not executed | JChars.SupplementaryNotDecodable | JCharsFixed.RoundTrip |
| lib/j_chars.rs:74-103 | the decoder builds the four UTF-8 bytes of a surrogate pair as `0xF1 + (next >> 2)`, `(next2 >> 2) \| ((high & 3) << 4) \| 0x80`, `0x3F \| b \| ((next2 & 3) << 4)` and the last byte unchanged | the standard form ED A0 80 ED B0 80 00 decodes to 19 90 BF 80 (the first sum wraps; a debug build panics) | rebuild the code point from the twenty payload bits and emit its UTF-8 encoding, F0 90 80 80 | high, not executed | JChars.JvmsSurrogatePairMisdecoded | JCharsFixed.GroupOfSurrogatePair |
| lib/jni.rs:959-965 | `JavaArray::global` and `JavaArray::weak` build the handle with `from_parts`, which tags it `Local` | promote any non-null array to global, then drop it: `DeleteLocalRef` is called on a global reference, which stays in the global table | tag the handle `Global`/`Weak` through `from_parts_type`, as `impl_jobject!` does at lines 667-679 | high, not executed | Jni.ArrayPromoteThenDropLeaks | Jni.PromoteFixedThenDropRestores |

=== FILE: j_chars.dfy ===
/**
 The runtime's Modified UTF-8 string buffer (`JavaChars`) and the two
 conversions between it and host strings, modelled as the source writes
 them: `New` encodes a host string, `ToString` decodes a buffer back to
 host UTF-8 bytes.

 For the Basic Multilingual Plane the encoder produces standard UTF-8
 (RFC 3629, section 3) except that U+0000 becomes the overlong pair
 C0 80, as in section 4.4.7 of the Java Virtual Machine Specification.
 Its branch for supplementary characters departs from that section:
 it emits seven bytes, pushes ED twice and marks the low surrogate with
 A0 instead of B0. The decoder's surrogate branch has defects of its
 own, so the round trip is proved for the Basic Multilingual Plane only
 and the supplementary behaviour is stated by `SupplementaryNotDecodable`
 and `JvmsSurrogatePairMisdecoded`.

 A host character is a Unicode scalar value held in 32 bits, as the
 source's `char`; `as u8` truncates to the low byte. The decoder works
 on bytes (`bv8`), whose `+` wraps modulo 256: that is how a release
 build evaluates the overflowing `0xF1 + (next_char >> 2)`.
 */
module JChars {
  import Utf8

  type byte = Utf8.byte
  type Scalar = Utf8.Scalar
  type Text = Utf8.Text

  /** The runtime-side string buffer: Modified UTF-8 bytes, normally NUL-terminated. */
  datatype JavaChars = JavaChars(contents: seq<byte>)

  /** What decoding a buffer yields: the host UTF-8 bytes, a rejected
      buffer, or a panic (the explicit one for a bad lead byte, or an
      index past the end of the buffer). `Valid` and `Invalid` are the
      `Some` and `None` of the `Option<String>` that `to_string` returns. */
  datatype Decoded = Valid(bytes: seq<byte>) | Invalid | Panic

  /** `out` followed by whatever the rest of the buffer decodes to. */
  function Prepend(out: seq<byte>, d: Decoded): Decoded {
    if d.Valid? then Valid(out + d.bytes) else d
  }

  /** The truncating cast `as u8`. */
  function U8(x: bv32): byte {
    (x & 0xFF) as byte
  }

  /** How many bytes the encoder emits for one character. */
  function EncodedLength(c: Scalar): nat {
    if c == 0 then 2
    else if c <= 0x7F then 1
    else if c <= 0x7FF then 2
    else if c <= 0xFFFF then 3
    else 7
  }

  /** True iff every character of `s` lies in the Basic Multilingual Plane. */
  predicate InBmp(s: Text) {
    forall k :: 0 <= k < |s| ==> s[k] <= 0xFFFF
  }

  // ---------------------------------------------------------------------------
  // Encoder
  // ---------------------------------------------------------------------------

  /** One character, encoded by the match arms of `JavaChars::new`. A
      `char` is never a surrogate or above U+10FFFF, so the source's
      `unreachable!()` arm is excluded by the type `Scalar`. */
  function EncodeChar(c: Scalar): (r: seq<byte>)
    ensures |r| == EncodedLength(c)
    ensures 0 !in r
    ensures 1 <= c <= 0xFFFF ==> r == Utf8.EncodeScalar(c)
    ensures c == 0 ==> r == [0xC0, 0x80]
  {
    if c == 0 || 0x80 <= c <= 0x7FF then TwoByteArm(c)
    else if 1 <= c <= 0x7F then [U8(c)]
    else if 0x800 <= c <= 0xFFFF then ThreeByteArm(c)
    else SurrogateArm(c)
  }

  /** The arm for U+0000 and U+0080..U+07FF: 110xxxxx 10xxxxxx. */
  function TwoByteArm(c: Scalar): (r: seq<byte>)
    requires c == 0 || 0x80 <= c <= 0x7FF
    ensures |r| == 2 && 0 !in r
    ensures c != 0 ==> r == Utf8.EncodeScalar(c)
  {
    TwoByteArmAgrees(c);
    [0xC0 | U8(c >> 6), 0x80 | U8(0x3F & c)]
  }

  /** The arm for U+0800..U+FFFF: 1110xxxx 10xxxxxx 10xxxxxx. */
  function ThreeByteArm(c: Scalar): (r: seq<byte>)
    requires 0x800 <= c <= 0xFFFF
    ensures |r| == 3 && 0 !in r
    ensures r == Utf8.EncodeScalar(c)
  {
    ThreeByteArmAgrees(c);
    var r := [0xE0 | U8(c >> 12), 0x80 | U8(0x3F & (c >> 6)), 0x80 | U8(0x3F & c)];
    NoZeroByte(r);
    r
  }

  /** Three bytes with their top bit set contain no zero byte. */
  lemma NoZeroByte(r: seq<byte>)
    requires |r| == 3 && r[0] & 0x80 != 0 && r[1] & 0x80 != 0 && r[2] & 0x80 != 0
    ensures 0 !in r
  {
  }

  /** The arm for supplementary characters, as written: a high-surrogate
      group, then ED twice, then a low-surrogate group whose marker is
      A0 rather than B0. */
  function SurrogateArm(c: Scalar): (r: seq<byte>)
    requires 0x10000 <= c
    ensures |r| == 7 && 0 !in r
    ensures r[0] == 0xED && r[3] == 0xED && r[4] == 0xED && 0xA0 <= r[1] <= 0xAF
  {
    var sub := c - 0x10000;
    [0xED, 0xA0 | U8(sub >> 16), 0x80 | U8(0x3F & (sub >> 10)),
     0xED, 0xED, 0xA0 | U8(0x0F & (sub >> 6)), 0x80 | U8(0x3F & sub)]
  }

  lemma TwoByteArmAgrees(c: Scalar)
    requires c == 0 || 0x80 <= c <= 0x7FF
    ensures c != 0 ==> [0xC0 | U8(c >> 6), 0x80 | U8(0x3F & c)] == Utf8.EncodeScalar(c)
  {
    if c == 0 { return; }
    assert Utf8.EncodeScalar(c) == [Utf8.Low(0xC0 + c / 64), Utf8.Low(0x80 + c % 64)];
    LeadAgrees(c >> 6, 0xC0);
    ContinuationAgrees(c);
  }

  lemma ThreeByteArmAgrees(c: Scalar)
    requires 0x800 <= c <= 0xFFFF
    ensures [0xE0 | U8(c >> 12), 0x80 | U8(0x3F & (c >> 6)), 0x80 | U8(0x3F & c)] == Utf8.EncodeScalar(c)
  {
    assert Utf8.EncodeScalar(c) == [Utf8.Low(0xE0 + c / 4096), Utf8.Low(0x80 + c / 64 % 64), Utf8.Low(0x80 + c % 64)];
    LeadAgrees(c >> 12, 0xE0);
    ContinuationAgrees(c >> 6);
    ContinuationAgrees(c);
  }

  /** Or-ing the marker bits of a lead byte into a small value adds them. */
  lemma LeadAgrees(x: bv32, marker: byte)
    requires (marker == 0xC0 && x < 0x20) || (marker == 0xE0 && x < 0x10)
    ensures marker | U8(x) == Utf8.Low(marker as bv32 + x)
  {
  }

  /** The low six bits of `x`, marked as a continuation byte. */
  lemma ContinuationAgrees(x: bv32)
    ensures 0x80 | U8(0x3F & x) == Utf8.Low(0x80 + x % 64)
  {
  }

  /** All characters of a string, encoded in order (the loop of `JavaChars::new`). */
  function EncodeChars(s: Text): (r: seq<byte>)
    ensures 0 !in r
  {
    if s == [] then [] else EncodeChar(s[0]) + EncodeChars(s[1..])
  }

  /** `JavaChars::new`: the encoded characters followed by the NUL terminator. */
  function New(s: Text): (r: JavaChars)
    ensures |r.contents| >= 1 && r.contents[|r.contents| - 1] == 0
    ensures forall k :: 0 <= k < |r.contents| - 1 ==> r.contents[k] != 0
  {
    JavaChars(EncodeChars(s) + [0])
  }

  /** `as_vec`: the raw bytes of a buffer. */
  function AsVec(j: JavaChars): seq<byte> {
    j.contents
  }

  /** `from_raw_vec`: a buffer over arbitrary bytes, unchecked. */
  function FromRawVec(data: seq<byte>): JavaChars {
    JavaChars(data)
  }

  /** Wrapping and unwrapping are inverse: the bytes are kept as they are,
      whether or not they are valid modified UTF-8. */
  lemma RawVecRoundTrip(data: seq<byte>, j: JavaChars)
    ensures AsVec(FromRawVec(data)) == data
    ensures FromRawVec(AsVec(j)) == j
  {
  }

  /** The empty string encodes to the terminator alone. */
  lemma NewEmpty()
    ensures New([]).contents == [0x00]
  {
  }

  // ---------------------------------------------------------------------------
  // Decoder
  // ---------------------------------------------------------------------------

  /** What one pass of the decoding loop does with the bytes at the cursor. */
  datatype Group =
    | End                                 // the NUL terminator: decoding is done
    | Emit(out: seq<byte>, width: nat)    // push `out`, advance the cursor by `width`
    | Reject                              // `return None`
    | Crash                               // a panic

  /** One iteration of the loop of `JavaChars::to_string`, on the bytes
      from the cursor onward. */
  function DecodeGroup(buf: seq<byte>): (g: Group)
    ensures g.Emit? ==> 1 <= g.width <= |buf| && |g.out| <= g.width
  {
    if |buf| == 0 then Crash
    else
      var i := buf[0];
      if i == 0x00 then End
      else if i <= 0x7F then Emit([i], 1)
      else if i == 0xC0 then
        if |buf| < 2 then Crash
        else if buf[1] == 0x80 then Emit([0x00], 2)
        else Emit([i, buf[1]], 2)
      else if 0xC1 <= i <= 0xDF then
        if |buf| < 2 then Crash else Emit([i, buf[1]], 2)
      else if i == 0xED then
        if |buf| < 2 then Crash
        else
          var next := buf[1];
          if next & 0xE0 == 0xA0 then
            if next & 0x10 != 0 then Reject
            else
              var high := 0xF1 + (next >> 2);
              if |buf| < 3 then Crash
              else
                var next2 := buf[2] & 0x0F;
                var second := (next2 >> 2) | ((high & 0x3) << 4) | 0x80;
                if |buf| < 4 then Crash
                else if buf[3] != 0xED then Reject
                else if |buf| < 5 then Crash
                else
                  var next3 := 0x3F | buf[4];
                  if next3 & 0xF0 != 0xB0 then Reject
                  else
                    var third := next3 | ((next2 & 0x3) << 4);
                    if |buf| < 6 then Crash
                    else Emit([high, second, third, buf[5]], 6)
          else if |buf| < 3 then Crash
          else Emit([i, next, buf[2]], 3)
      else if 0xE0 <= i <= 0xEF then
        if |buf| < 3 then Crash else Emit([i, buf[1], buf[2]], 3)
      else Crash
  }

  /** The result of decoding a whole buffer, one group at a time. */
  function Decode(buf: seq<byte>): (r: Decoded)
    ensures r.Valid? ==> |r.bytes| < |buf|
    decreases |buf|
  {
    match DecodeGroup(buf)
    case End => Valid([])
    case Reject => Invalid
    case Crash => Panic
    case Emit(out, width) => Prepend(out, Decode(buf[width..]))
  }

  /** `JavaChars::to_string`: the source's cursor loop, computing `Decode`. */
  method ToString(j: JavaChars) returns (r: Decoded)
    ensures r == Decode(j.contents)
  {
    var buf := j.contents;
    var a: seq<byte> := [];
    var counter := 0;
    while true
      invariant 0 <= counter <= |buf|
      invariant Decode(buf) == Prepend(a, Decode(buf[counter..]))
      decreases |buf| - counter
    {
      ghost var rest := buf[counter..];
      ghost var before := a;
      if counter >= |buf| { return Panic; }
      var i := buf[counter];
      counter := counter + 1;
      if i == 0x00 {
        return Valid(a);
      } else if i <= 0x7F {
        a := a + [i];
      } else if i == 0xC0 {
        if counter >= |buf| { return Panic; }
        var k := buf[counter];
        counter := counter + 1;
        if k == 0x80 {
          a := a + [0x00];
        } else {
          a := a + [i, k];
        }
      } else if 0xC1 <= i <= 0xDF {
        if counter >= |buf| { return Panic; }
        a := a + [i, buf[counter]];
        counter := counter + 1;
      } else if i == 0xED {
        if counter >= |buf| { return Panic; }
        var next := buf[counter];
        counter := counter + 1;
        if next & 0xE0 == 0xA0 {
          if next & 0x10 != 0 {
            return Invalid;
          }
          var high := 0xF1 + (next >> 2);
          if counter >= |buf| { return Panic; }
          var next2 := buf[counter] & 0x0F;
          counter := counter + 1;
          var second := (next2 >> 2) | ((high & 0x3) << 4) | 0x80;
          if counter >= |buf| { return Panic; }
          if buf[counter] != 0xED {
            return Invalid;
          }
          counter := counter + 1;
          if counter >= |buf| { return Panic; }
          var next3 := 0x3F | buf[counter];
          if next3 & 0xF0 != 0xB0 {
            return Invalid;
          }
          counter := counter + 1;
          var third := next3 | ((next2 & 0x3) << 4);
          if counter >= |buf| { return Panic; }
          var next4 := buf[counter];
          counter := counter + 1;
          a := a + [high, second, third, next4];
        } else {
          if counter >= |buf| { return Panic; }
          a := a + [i, next, buf[counter]];
          counter := counter + 1;
        }
      } else if 0xE0 <= i <= 0xEF {
        if counter + 1 >= |buf| { return Panic; }
        a := a + [i, buf[counter], buf[counter + 1]];
        counter := counter + 2;
      } else {
        return Panic;
      }
      assert DecodeGroup(rest) == Emit(a[|before|..], |rest| - |buf[counter..]|);
      PrependAppend(before, a[|before|..], Decode(buf[counter..]));
      assert before + a[|before|..] == a;
    }
  }

  lemma PrependAppend(a: seq<byte>, b: seq<byte>, d: Decoded)
    ensures Prepend(a, Prepend(b, d)) == Prepend(a + b, d)
  {
    if d.Valid? {
      assert a + (b + d.bytes) == (a + b) + d.bytes;
    }
  }

  // ---------------------------------------------------------------------------
  // Properties of the decoder
  // ---------------------------------------------------------------------------

  /** A lone terminator decodes to the empty string, whatever follows it. */
  lemma DecodeTerminator(t: seq<byte>)
    ensures Decode([0x00] + t) == Valid([])
  {
  }

  /** A group's outcome depends only on the bytes it reads. */
  lemma GroupIgnoresTrailing(buf: seq<byte>, t: seq<byte>)
    requires DecodeGroup(buf) != Crash
    ensures DecodeGroup(buf + t) == DecodeGroup(buf)
  {
    assert forall k :: 0 <= k < |buf| ==> (buf + t)[k] == buf[k];
  }

  /** Decoding stops where the source returns: bytes appended after a
      buffer that decodes (or is rejected) without running off its end
      never change the result. */
  lemma {:induction false} DecodeIgnoresTrailing(buf: seq<byte>, t: seq<byte>)
    requires !Decode(buf).Panic?
    ensures Decode(buf + t) == Decode(buf)
    decreases |buf|
  {
    GroupIgnoresTrailing(buf, t);
    match DecodeGroup(buf)
    case Emit(out, width) =>
      assert (buf + t)[width..] == buf[width..] + t;
      DecodeIgnoresTrailing(buf[width..], t);
    case _ =>
  }

  /** The groups the decoder copies to its output unchanged. */
  predicate CopiedGroup(g: seq<byte>) {
    || (|g| == 1 && 0x01 <= g[0] <= 0x7F)
    || (|g| == 2 && g[0] == 0xC0 && g[1] != 0x80)
    || (|g| == 2 && 0xC1 <= g[0] <= 0xDF)
    || (|g| == 3 && 0xE0 <= g[0] <= 0xEF && g[0] != 0xED)
    || (|g| == 3 && g[0] == 0xED && g[1] & 0xE0 != 0xA0)
  }

  /** Groups led by 01..7F, C1..DF, E0..EF other than ED, C0 not followed
      by 80, and ED not followed by a high-surrogate byte are copied through. */
  lemma DecodeCopiesThrough(g: seq<byte>, t: seq<byte>)
    requires CopiedGroup(g)
    ensures Decode(g + t) == Prepend(g, Decode(t))
  {
    assert DecodeGroup(g + t) == Emit(g, |g|);
    assert (g + t)[|g|..] == t;
  }

  /** The overlong pair C0 80 decodes to one NUL byte. */
  lemma DecodeOverlongNul(t: seq<byte>)
    ensures Decode([0xC0, 0x80] + t) == Prepend([0x00], Decode(t))
  {
    assert ([0xC0, 0x80] + t)[2..] == t;
  }

  /** Lead bytes 80..BF and F0..FF make the source panic. */
  lemma DecodePanicsOnBadLead(b: byte, t: seq<byte>)
    requires 0x80 <= b <= 0xBF || 0xF0 <= b
    ensures Decode([b] + t) == Panic
  {
  }

  /** The decoder's `None` cases, all inside a group led by ED. A second
      byte B0..BF is an invalid surrogate; after a high-surrogate byte
      A0..AF the fourth byte must be ED and the fifth a continuation
      byte (`0x3F | b` makes the source's check exactly that). When all
      checks pass the six bytes become one four-byte group. */
  lemma DecodeSurrogateChecks(buf: seq<byte>)
    requires |buf| >= 2 && buf[0] == 0xED && 0xA0 <= buf[1] <= 0xBF
    ensures 0xB0 <= buf[1] ==> Decode(buf) == Invalid
    ensures buf[1] < 0xB0 && |buf| >= 4 && buf[3] != 0xED ==> Decode(buf) == Invalid
    ensures buf[1] < 0xB0 && |buf| >= 5 && buf[3] == 0xED && !Utf8.IsContinuation(buf[4]) ==>
              Decode(buf) == Invalid
    ensures buf[1] < 0xB0 && |buf| >= 6 && buf[3] == 0xED && Utf8.IsContinuation(buf[4]) ==>
              DecodeGroup(buf).Emit? && DecodeGroup(buf).width == 6 && |DecodeGroup(buf).out| == 4
  {
    if buf[1] < 0xB0 && |buf| >= 5 && buf[3] == 0xED {
      ContinuationMask(buf[4]);
    }
  }

  /** `(0x3F | b) & 0xF0 == 0xB0` holds exactly for continuation bytes. */
  lemma ContinuationMask(b: byte)
    ensures ((0x3F | b) & 0xF0 == 0xB0) == Utf8.IsContinuation(b)
  {
  }

  // ---------------------------------------------------------------------------
  // Round trip
  // ---------------------------------------------------------------------------

  /** The decoder reads a BMP character's encoding as one group that
      yields the character's UTF-8 bytes. */
  lemma GroupOfBmpChar(c: Scalar, t: seq<byte>)
    requires c <= 0xFFFF
    ensures DecodeGroup(EncodeChar(c) + t) == Emit(Utf8.EncodeScalar(c), |EncodeChar(c)|)
  {
    if c == 0 {
      assert EncodeChar(c) + t == [0xC0, 0x80] + t;
    } else {
      assert CopiedGroup(EncodeChar(c));
      assert DecodeGroup(EncodeChar(c) + t) == Emit(EncodeChar(c), |EncodeChar(c)|);
    }
  }

  /** One BMP character's encoding decodes to its UTF-8 bytes. */
  lemma DecodeBmpChar(c: Scalar, t: seq<byte>)
    requires c <= 0xFFFF
    ensures Decode(EncodeChar(c) + t) == Prepend(Utf8.EncodeScalar(c), Decode(t))
  {
    if c == 0 {
      DecodeOverlongNul(t);
    } else {
      DecodeCopiesThrough(EncodeChar(c), t);
    }
  }

  lemma {:induction false} DecodeBmpChars(s: Text, t: seq<byte>)
    requires InBmp(s)
    ensures Decode(EncodeChars(s) + t) == Prepend(Utf8.Encode(s), Decode(t))
  {
    if s == [] {
      assert EncodeChars(s) + t == t;
      assert Prepend([], Decode(t)) == Decode(t);
    } else {
      var rest := EncodeChars(s[1..]) + t;
      assert EncodeChars(s) + t == EncodeChar(s[0]) + rest;
      DecodeBmpChar(s[0], rest);
      assert InBmp(s[1..]);
      DecodeBmpChars(s[1..], t);
      PrependAppend(Utf8.EncodeScalar(s[0]), Utf8.Encode(s[1..]), Decode(t));
    }
  }

  /** Round trip: a host string of BMP characters, U+0000 included,
      encoded by `JavaChars::new` and decoded by `to_string`, gives back
      exactly its UTF-8 bytes. */
  lemma {:induction false} RoundTripBmp(s: Text)
    requires InBmp(s)
    ensures Decode(New(s).contents) == Valid(Utf8.Encode(s))
  {
    DecodeBmpChars(s, [0x00]);
    DecodeTerminator([]);
    assert Utf8.Encode(s) + [] == Utf8.Encode(s);
  }

  lemma {:induction false} EncodeCharsAppend(s: Text, t: Text)
    ensures EncodeChars(s + t) == EncodeChars(s) + EncodeChars(t)
  {
    if s == [] {
      assert s + t == t;
    } else {
      assert (s + t)[1..] == s[1..] + t;
      EncodeCharsAppend(s[1..], t);
    }
  }

  // ---------------------------------------------------------------------------
  // Supplementary characters, as written
  // ---------------------------------------------------------------------------

  /** The seven bytes `JavaChars::new` emits for a supplementary
      character are rejected by `to_string`: the second ED lands where
      the low-surrogate byte is checked, and `0x3F | 0xED` fails it. */
  lemma SupplementaryNotDecodable(c: Scalar, t: seq<byte>)
    requires 0x10000 <= c
    ensures Decode(EncodeChar(c) + t) == Invalid
  {
    var buf := EncodeChar(c) + t;
    assert buf[0] == 0xED && buf[3] == 0xED && buf[4] == 0xED;
    assert 0xA0 <= buf[1] <= 0xAF;
    DecodeSurrogateChecks(buf);
  }

  /** So a host string decodes back only up to its first supplementary
      character: from there on the whole result is `None`. */
  lemma SupplementaryBreaksRoundTrip(p: Text, c: Scalar, q: Text)
    requires InBmp(p) && 0x10000 <= c
    ensures Decode(New(p + [c] + q).contents) == Invalid
  {
    var rest := EncodeChars(q) + [0x00];
    var tail := EncodeChar(c) + rest;
    assert New(p + [c] + q).contents == EncodeChars(p) + tail by {
      NewSplits(p, c, q);
    }
    DecodeBmpChars(p, tail);
    SupplementaryNotDecodable(c, rest);
  }

  lemma NewSplits(p: Text, c: Scalar, q: Text)
    ensures New(p + [c] + q).contents == EncodeChars(p) + (EncodeChar(c) + (EncodeChars(q) + [0x00]))
  {
    var cq := [c] + q;
    assert cq[1..] == q;
    assert EncodeChars(cq) == EncodeChar(c) + EncodeChars(q);
    assert p + [c] + q == p + cq;
    EncodeCharsAppend(p, cq);
    SeqAssoc(EncodeChars(p), EncodeChar(c), EncodeChars(q), [0x00]);
  }

  lemma SeqAssoc(a: seq<byte>, b: seq<byte>, c: seq<byte>, d: seq<byte>)
    ensures (a + (b + c)) + d == a + (b + (c + d))
  {
  }

  /** Even the six-byte form of section 4.4.7 of the Java Virtual Machine
      Specification is not decoded correctly: the first byte of the
      four-byte group comes from `0xF1 + (next_char >> 2)`, which wraps
      to 19..1C, an ASCII control byte, where UTF-8 needs F0..F4. */
  lemma SurrogateGroupLeadByte(buf: seq<byte>)
    requires |buf| >= 2 && buf[0] == 0xED && 0xA0 <= buf[1] <= 0xAF
    requires DecodeGroup(buf).Emit?
    ensures 0x19 <= DecodeGroup(buf).out[0] <= 0x1C
  {
  }

  /** U+10000 in the six-byte form decodes to 19 90 BF 80 instead of
      its UTF-8 bytes F0 90 80 80. */
  lemma JvmsSurrogatePairMisdecoded()
    ensures Utf8.EncodeScalar(0x10000) == [0xF0, 0x90, 0x80, 0x80]
    ensures Decode([0xED, 0xA0, 0x80, 0xED, 0xB0, 0x80, 0x00]) == Valid([0x19, 0x90, 0xBF, 0x80])
  {
    var buf: seq<byte> := [0xED, 0xA0, 0x80, 0xED, 0xB0, 0x80, 0x00];
    assert DecodeGroup(buf) == Emit([0x19, 0x90, 0xBF, 0x80], 6);
    assert buf[6..] == [0x00];
  }

  // ---------------------------------------------------------------------------
  // ASCII
  // ---------------------------------------------------------------------------

  predicate IsAscii(s: Text)
  {
    forall k :: 0 <= k < |s| ==> s[k] != 0 && s[k] < 0x80
  }

  /** The bytes of an ASCII string, one per character. */
  function AsciiBytes(s: Text): (r: seq<byte>)
    requires IsAscii(s)
    ensures |r| == |s|
  {
    if s == [] then [] else [Utf8.Low(s[0])] + AsciiBytes(s[1..])
  }

  /** An ASCII string is its own UTF-8. */
  lemma {:induction false} AsciiIsUtf8(s: Text)
    requires IsAscii(s)
    ensures Utf8.Encode(s) == AsciiBytes(s)
  {
    if s != [] {
      assert IsAscii(s[1..]);
      AsciiIsUtf8(s[1..]);
      assert Utf8.EncodeScalar(s[0]) == [Utf8.Low(s[0])];
    }
  }

  /** An ASCII string, such as the "Hello, world!" of the integration
      test, is encoded as its own bytes plus the terminator and decodes
      back to them. */
  lemma AsciiRoundTrip(s: Text)
    requires IsAscii(s)
    ensures |New(s).contents| == |s| + 1
    ensures Decode(New(s).contents) == Valid(AsciiBytes(s))
  {
    assert InBmp(s);
    RoundTripBmp(s);
    AsciiIsUtf8(s);
    AsciiLength(s);
  }

  lemma {:induction false} AsciiLength(s: Text)
    requires IsAscii(s)
    ensures |EncodeChars(s)| == |s|
  {
    if s != [] {
      assert IsAscii(s[1..]);
      AsciiLength(s[1..]);
    }
  }
}

=== FILE: j_chars_fixed.dfy ===
/**
 The corrected codec for characters outside the Basic Multilingual
 Plane. A supplementary character is written as a surrogate pair, each
 surrogate in three bytes, exactly as section 4.4.7 of the Java Virtual
 Machine Specification lays out:

   ED  1010hhhh  10hhhhhh  ED  1011llll  10llllll

 where hhhh hhhhhh are the top ten bits and llll llllll the low ten bits
 of `c - 0x10000`. The decoder recognises that form, rebuilds the scalar
 value from the twenty payload bits and emits its standard UTF-8 bytes.
 Everything else is the as-written codec of module `JChars` unchanged,
 so the round trip now holds for every host string.
 */
module JCharsFixed {
  import Utf8
  import JChars

  type byte = Utf8.byte
  type Scalar = Utf8.Scalar
  type Text = Utf8.Text
  type Decoded = JChars.Decoded

  // ---------------------------------------------------------------------------
  // Encoder
  // ---------------------------------------------------------------------------

  /** The six-byte surrogate-pair form of a supplementary character. */
  function SurrogatePair(c: Scalar): (r: seq<byte>)
    requires 0x10000 <= c
    ensures |r| == 6 && 0 !in r
    ensures r[0] == 0xED && r[3] == 0xED
    ensures r[1] & 0xF0 == 0xA0 && r[4] & 0xF0 == 0xB0
    ensures Utf8.IsContinuation(r[2]) && Utf8.IsContinuation(r[5])
  {
    var sub := c - 0x10000;
    [0xED, 0xA0 | JChars.U8(sub >> 16), 0x80 | JChars.U8(0x3F & (sub >> 10)),
     0xED, 0xB0 | JChars.U8(0x0F & (sub >> 6)), 0x80 | JChars.U8(0x3F & sub)]
  }

  /** One character: the as-written arms for the BMP, the surrogate pair above it. */
  function EncodeChar(c: Scalar): (r: seq<byte>)
    ensures 0 !in r
    ensures |r| == (if c <= 0xFFFF then JChars.EncodedLength(c) else 6)
  {
    if c <= 0xFFFF then JChars.EncodeChar(c) else SurrogatePair(c)
  }

  /** The corrected encoding of a string: on strings of BMP characters it
      is the as-written encoding, byte for byte. */
  function EncodeChars(s: Text): (r: seq<byte>)
    ensures 0 !in r
    ensures JChars.InBmp(s) ==> r == JChars.EncodeChars(s)
  {
    if s == [] then [] else EncodeChar(s[0]) + EncodeChars(s[1..])
  }

  /** The corrected `JavaChars::new`: the encoding followed by the NUL terminator. */
  function New(s: Text): (r: JChars.JavaChars)
    ensures |r.contents| >= 1 && r.contents[|r.contents| - 1] == 0
    ensures forall k :: 0 <= k < |r.contents| - 1 ==> r.contents[k] != 0
  {
    JChars.JavaChars(EncodeChars(s) + [0])
  }

  // ---------------------------------------------------------------------------
  // Decoder
  // ---------------------------------------------------------------------------

  /** The scalar value whose surrogate pair carries these payload bytes. */
  function PairScalar(b1: byte, b2: byte, b4: byte, b5: byte): (v: Scalar)
    ensures 0x10000 <= v
  {
    0x10000 + (((b1 & 0x0F) as bv32 << 16) | ((b2 & 0x3F) as bv32 << 10)
               | ((b4 & 0x0F) as bv32 << 6) | (b5 & 0x3F) as bv32)
  }

  /** The group that starts with ED 1010xxxx: a high surrogate, which must
      be followed by ED and a low surrogate 1011xxxx. */
  function PairGroup(buf: seq<byte>): (g: JChars.Group)
    requires |buf| >= 2 && buf[0] == 0xED && buf[1] & 0xE0 == 0xA0
    ensures g.Emit? ==> g.width == 6 <= |buf| && |g.out| == 4
  {
    if buf[1] & 0x10 != 0 then JChars.Reject
    else if |buf| < 4 then JChars.Crash
    else if buf[3] != 0xED then JChars.Reject
    else if |buf| < 5 then JChars.Crash
    else if buf[4] & 0xF0 != 0xB0 then JChars.Reject
    else if |buf| < 6 then JChars.Crash
    else JChars.Emit(Utf8.EncodeScalar(PairScalar(buf[1], buf[2], buf[4], buf[5])), 6)
  }

  /** One step of the corrected decoder: surrogate pairs are rebuilt,
      every other group is read as `JChars.DecodeGroup` reads it. */
  function DecodeGroup(buf: seq<byte>): (g: JChars.Group)
    ensures g.Emit? ==> 1 <= g.width <= |buf|
  {
    if |buf| >= 2 && buf[0] == 0xED && buf[1] & 0xE0 == 0xA0 then PairGroup(buf)
    else JChars.DecodeGroup(buf)
  }

  /** No two adjacent bytes of `buf` start a surrogate pair (ED 101xxxxx). */
  predicate NoPairLead(buf: seq<byte>)
  {
    forall k :: 0 <= k < |buf| - 1 ==> !(buf[k] == 0xED && buf[k + 1] & 0xE0 == 0xA0)
  }

  /** The corrected `JavaChars::to_string`. On a buffer where no surrogate
      pair starts it decodes exactly as the as-written decoder does. */
  function Decode(buf: seq<byte>): (r: Decoded)
    ensures r.Valid? ==> |r.bytes| < |buf|
    ensures NoPairLead(buf) ==> r == JChars.Decode(buf)
    decreases |buf|
  {
    match DecodeGroup(buf)
    case End => JChars.Valid([])
    case Reject => JChars.Invalid
    case Crash => JChars.Panic
    case Emit(out, width) =>
      assert NoPairLead(buf) ==> NoPairLead(buf[width..]) by {
        if NoPairLead(buf) {
          forall k | 0 <= k < |buf[width..]| - 1
            ensures !(buf[width..][k] == 0xED && buf[width..][k + 1] & 0xE0 == 0xA0)
          {
            assert buf[width..][k] == buf[width + k] && buf[width..][k + 1] == buf[width + k + 1];
          }
        }
      }
      JChars.Prepend(out, Decode(buf[width..]))
  }

  // ---------------------------------------------------------------------------
  // Round trip
  // ---------------------------------------------------------------------------

  /** The payload bits of the pair give back the character. */
  lemma PairScalarInverts(c: Scalar)
    requires 0x10000 <= c
    ensures var r := SurrogatePair(c); PairScalar(r[1], r[2], r[4], r[5]) == c
  {
  }

  /** The corrected decoder reads the six-byte form as one group that
      yields the character's four UTF-8 bytes. */
  lemma GroupOfSurrogatePair(c: Scalar, t: seq<byte>)
    requires 0x10000 <= c
    ensures DecodeGroup(SurrogatePair(c) + t) == JChars.Emit(Utf8.EncodeScalar(c), 6)
  {
    var r := SurrogatePair(c);
    var buf := r + t;
    assert buf[0] == 0xED && buf[1] == r[1] && buf[2] == r[2];
    assert buf[3] == 0xED && buf[4] == r[4] && buf[5] == r[5];
    PairScalarInverts(c);
  }

  /** A BMP character's encoding is not a surrogate-pair lead, so the
      corrected decoder reads it as the as-written one does. */
  lemma GroupOfBmpChar(c: Scalar, t: seq<byte>)
    requires c <= 0xFFFF
    ensures DecodeGroup(EncodeChar(c) + t) == JChars.Emit(Utf8.EncodeScalar(c), |EncodeChar(c)|)
  {
    var e := JChars.EncodeChar(c);
    JChars.GroupOfBmpChar(c, t);
    if c != 0 && |e| >= 2 && e[0] == 0xED {
      assert e[1] < 0xA0;
    }
    assert (e + t)[0] == e[0];
    assert |e| >= 2 ==> (e + t)[1] == e[1];
  }

  lemma DecodeChar(c: Scalar, t: seq<byte>)
    ensures Decode(EncodeChar(c) + t) == JChars.Prepend(Utf8.EncodeScalar(c), Decode(t))
  {
    var e := EncodeChar(c);
    if c <= 0xFFFF {
      GroupOfBmpChar(c, t);
    } else {
      GroupOfSurrogatePair(c, t);
    }
    assert (e + t)[|e|..] == t;
  }

  lemma {:induction false} DecodeChars(s: Text, t: seq<byte>)
    ensures Decode(EncodeChars(s) + t) == JChars.Prepend(Utf8.Encode(s), Decode(t))
  {
    if s == [] {
      assert EncodeChars(s) + t == t;
      assert JChars.Prepend([], Decode(t)) == Decode(t);
    } else {
      var rest := EncodeChars(s[1..]) + t;
      assert EncodeChars(s) + t == EncodeChar(s[0]) + rest;
      DecodeChar(s[0], rest);
      DecodeChars(s[1..], t);
      JChars.PrependAppend(Utf8.EncodeScalar(s[0]), Utf8.Encode(s[1..]), Decode(t));
    }
  }

  /** Round trip for every host string, supplementary characters included. */
  lemma {:induction false} RoundTrip(s: Text)
    ensures Decode(New(s).contents) == JChars.Valid(Utf8.Encode(s))
  {
    DecodeChars(s, [0x00]);
    assert Decode([0x00]) == JChars.Valid([]);
    assert Utf8.Encode(s) + [] == Utf8.Encode(s);
  }
}

=== FILE: jni.dfy ===
/**
 The exception-token and reference protocol of the bindings' `JavaEnv`
 and object wrappers.

 The virtual machine behind a `JNIEnv` is modelled as a value of type
 `Runtime`: whether an exception is pending, the three tables of live
 local, global and weak references (as multisets of raw references), the
 counter from which the runtime draws fresh references, a flag raised
 when a reference is deleted from a table it is not in (undefined
 behaviour in a real virtual machine), and a log of the foreign calls
 made so far. Each foreign call is a function from one runtime to the
 next; what the real virtual machine decides (whether a class is found,
 whether a `Throw` succeeds) is a parameter.

 The two tokens are linear in the source: a `Capability` or `Exception`
 is moved into the call that consumes it. Dafny has no moves, so each
 token carries an epoch. The runtime records the epoch of the one live
 token; a call that consumes a token requires its epoch to be current,
 a call that mints a token advances the epoch, and a call that hands the
 same token back leaves the epoch alone. A token is sound when it tells
 the truth about the pending flag (`Holds`, `Raised`).
 */
module Jni {
  import Native
  import JChars

  /** A raw `jobject`; 0 is the null reference. */
  type Ref = nat

  const Null: Ref := 0

  /** `RefType`: which table a handle's reference lives in. */
  datatype RefType = Local | Global | Weak

  /** The wrapper struct a handle belongs to: `JavaObject`, `JavaClass`,
      `JavaThrowable`, `JavaString` (all built by `impl_jobject!`) or
      `JavaArray` (which implements `JObject` by hand). */
  datatype Kind = ObjectKind | ClassKind | ThrowableKind | StringKind | ArrayKind

  /** A wrapper: its raw reference and the table it claims the reference
      is in. The `JavaEnv` it carries is the runtime threaded through the
      functions below. */
  datatype Handle = Handle(kind: Kind, ptr: Ref, rtype: RefType)

  /** No exception is pending: it is safe to call into the runtime. */
  datatype Capability = Capability(epoch: nat)

  /** An exception is pending. */
  datatype Exception = Exception(epoch: nat)

  /** `ThisResult<T>`: a value and the capability handed back, or the
      exception token. */
  datatype ThisResult<T> = Ok(value: T, cap: Capability) | Err(exn: Exception)

  /** A foreign call made through the `JNIEnv` function table. */
  datatype Call =
    | NewLocalRef(arg: Ref)
    | NewGlobalRef(arg: Ref)
    | NewWeakGlobalRef(arg: Ref)
    | DeleteLocalRef(arg: Ref)
    | DeleteGlobalRef(arg: Ref)
    | DeleteWeakGlobalRef(arg: Ref)
    | ExceptionCheck
    | ExceptionClear
    | Throw(arg: Ref)
    | ThrowNew(arg: Ref, msg: seq<bv8>)
    | EnsureLocalCapacity(capacity: Native.Jint)
    | FindClass(name: seq<bv8>)
    | AllocObject(arg: Ref)

  datatype Runtime = Runtime(
    pending: bool,
    locals: multiset<Ref>,
    globals: multiset<Ref>,
    weaks: multiset<Ref>,
    next: nat,        // the last reference handed out; fresh ones are above it
    misused: bool,    // a delete named a reference its table does not hold
    epoch: nat,       // the epoch of the one live token
    log: seq<Call>)

  /** A result together with the runtime after the call. */
  datatype Out<T> = Out(value: T, st: Runtime)

  // ---------------------------------------------------------------------------
  // Invariants and token soundness
  // ---------------------------------------------------------------------------

  function Table(st: Runtime, t: RefType): multiset<Ref>
  {
    match t
    case Local => st.locals
    case Global => st.globals
    case Weak => st.weaks
  }

  /** Every reference in `m` is non-null and at most `next`. */
  predicate Bounded(m: multiset<Ref>, next: nat)
  {
    forall r :: r in m ==> 0 < r <= next
  }

  /** Every live reference is non-null and was handed out already. */
  predicate Wf(st: Runtime)
  {
    Bounded(st.locals, st.next) && Bounded(st.globals, st.next) && Bounded(st.weaks, st.next)
  }

  /** `cap` is the live token and no exception is pending. */
  predicate Holds(st: Runtime, cap: Capability)
  {
    cap.epoch == st.epoch && !st.pending
  }

  /** `exn` is the live token and an exception is pending. */
  predicate Raised(st: Runtime, exn: Exception)
  {
    exn.epoch == st.epoch && st.pending
  }

  /** The token a call returns tells the truth about the runtime after it. */
  predicate Sound<T>(o: Out<ThisResult<T>>)
  {
    match o.value
    case Ok(_, cap) => Holds(o.st, cap)
    case Err(exn) => Raised(o.st, exn)
  }

  /** The two tables other than `t` are the same in `a` and `b`. */
  predicate OthersUnchanged(a: Runtime, b: Runtime, t: RefType)
  {
    match t
    case Local => a.globals == b.globals && a.weaks == b.weaks
    case Global => a.locals == b.locals && a.weaks == b.weaks
    case Weak => a.locals == b.locals && a.globals == b.globals
  }

  /** The three tables are the same in `a` and `b`. */
  predicate SameRefs(a: Runtime, b: Runtime)
  {
    a.locals == b.locals && a.globals == b.globals && a.weaks == b.weaks
  }

  /** Only the log, the pending flag and the epoch may differ. */
  predicate SameTables(a: Runtime, b: Runtime)
  {
    a.locals == b.locals && a.globals == b.globals && a.weaks == b.weaks
    && a.next == b.next && a.misused == b.misused
  }

  // ---------------------------------------------------------------------------
  // The foreign runtime
  // ---------------------------------------------------------------------------

  function NewCall(t: RefType, r: Ref): Call
  {
    match t
    case Local => NewLocalRef(r)
    case Global => NewGlobalRef(r)
    case Weak => NewWeakGlobalRef(r)
  }

  function DeleteCall(t: RefType, r: Ref): Call
  {
    match t
    case Local => DeleteLocalRef(r)
    case Global => DeleteGlobalRef(r)
    case Weak => DeleteWeakGlobalRef(r)
  }

  function Record(st: Runtime, c: Call): (r: Runtime)
    ensures SameTables(r, st) && r.pending == st.pending && r.epoch == st.epoch
    ensures r.log == st.log + [c]
  {
    st.(log := st.log + [c])
  }

  /** A refused (out of memory) `NewWeakGlobalRef` of a non-null
      reference throws `OutOfMemoryError`; `NewLocalRef` and
      `NewGlobalRef` only return null, as the JNI specification states. */
  predicate RefusalThrows(t: RefType, r: Ref, granted: bool)
  {
    t == Weak && r != Null && !granted
  }

  /** `NewLocalRef`, `NewGlobalRef` or `NewWeakGlobalRef`: a fresh
      reference in table `t` to the object `r` refers to; null for a null
      argument, and null when the runtime refuses (out of memory). */
  function NewRef(st: Runtime, t: RefType, r: Ref, granted: bool): (o: Out<Ref>)
    ensures o.value == Null <==> (r == Null || !granted)
    ensures o.value != Null ==> o.value == o.st.next == st.next + 1
    ensures o.value != Null ==> Table(o.st, t) == Table(st, t) + multiset{o.value}
    ensures o.value == Null ==> Table(o.st, t) == Table(st, t) && o.st.next == st.next
    ensures OthersUnchanged(o.st, st, t)
    ensures o.st.pending == (st.pending || RefusalThrows(t, r, granted))
    ensures o.st.epoch == st.epoch && o.st.misused == st.misused
    ensures o.st.log == st.log + [NewCall(t, r)]
    ensures Wf(st) ==> Wf(o.st)
  {
    var st1 := Record(st, NewCall(t, r));
    if r == Null || !granted then
      Out(Null, if RefusalThrows(t, r, granted) then st1.(pending := true) else st1)
    else
      var m := st.next + 1;
      match t
      case Local => Out(m, st1.(locals := st.locals + multiset{m}, next := m))
      case Global => Out(m, st1.(globals := st.globals + multiset{m}, next := m))
      case Weak => Out(m, st1.(weaks := st.weaks + multiset{m}, next := m))
  }

  /** `DeleteLocalRef`, `DeleteGlobalRef` or `DeleteWeakGlobalRef`.
      Deleting null does nothing; deleting a reference the table does not
      hold is a misuse. */
  function DeleteRef(st: Runtime, t: RefType, r: Ref): (s: Runtime)
    ensures r != Null && r in Table(st, t) ==> Table(s, t) == Table(st, t) - multiset{r}
    ensures !(r != Null && r in Table(st, t)) ==> Table(s, t) == Table(st, t)
    ensures OthersUnchanged(s, st, t)
    ensures s.misused <==> st.misused || (r != Null && r !in Table(st, t))
    ensures s.pending == st.pending && s.epoch == st.epoch && s.next == st.next
    ensures s.log == st.log + [DeleteCall(t, r)]
    ensures Wf(st) ==> Wf(s)
  {
    var st1 := Record(st, DeleteCall(t, r));
    if r == Null then st1
    else if r !in Table(st, t) then st1.(misused := true)
    else
      match t
      case Local => st1.(locals := st.locals - multiset{r})
      case Global => st1.(globals := st.globals - multiset{r})
      case Weak => st1.(weaks := st.weaks - multiset{r})
  }

  /** `ExceptionCheck`: whether an exception is pending. */
  function CheckException(st: Runtime): (o: Out<bool>)
    ensures o.value == st.pending
    ensures o.st == Record(st, ExceptionCheck)
  {
    Out(st.pending, Record(st, ExceptionCheck))
  }

  /** `FindClass` or `AllocObject`: a fresh local reference, or null with
      an exception pending (`NoClassDefFoundError`, `InstantiationException`,
      `OutOfMemoryError`, ...), as the Java Native Interface specifies. */
  function NewLocalOrThrow(st: Runtime, c: Call, succeeded: bool): (o: Out<Ref>)
    ensures o.value == Null <==> !succeeded
    ensures succeeded ==> o.value == o.st.next == st.next + 1
    ensures succeeded ==> o.st.locals == st.locals + multiset{o.value} && o.st.pending == st.pending
    ensures !succeeded ==> o.st.locals == st.locals && o.st.next == st.next && o.st.pending
    ensures o.st.globals == st.globals && o.st.weaks == st.weaks && o.st.misused == st.misused
    ensures o.st.epoch == st.epoch && o.st.log == st.log + [c]
    ensures Wf(st) ==> Wf(o.st)
  {
    var st1 := Record(st, c);
    if succeeded then
      var m := st.next + 1;
      Out(m, st1.(locals := st.locals + multiset{m}, next := m))
    else Out(Null, st1.(pending := true))
  }

  // ---------------------------------------------------------------------------
  // Building handles (`impl_jobject!` and `JavaArray`)
  // ---------------------------------------------------------------------------

  /** `from_jobject`: adopt a raw reference as a local handle, unchecked. */
  function FromJobject(kind: Kind, ptr: Ref): (h: Handle)
    ensures h.kind == kind && h.ptr == ptr && h.rtype == Local
  {
    Handle(kind, ptr, Local)
  }

  /** `from_parts_type`: ask the runtime whether an exception is pending;
      if so, mint an `Exception`, otherwise wrap `ptr` with tag `typ` and
      hand the capability back. */
  function FromPartsType(st: Runtime, kind: Kind, ptr: Ref, typ: RefType, cap: Capability): (o: Out<ThisResult<Handle>>)
    requires cap.epoch == st.epoch
    ensures o.value.Err? <==> st.pending
    ensures o.value.Ok? ==> o.value.value == Handle(kind, ptr, typ) && o.value.cap == cap
    ensures Sound(o)
    ensures SameTables(o.st, st) && o.st.pending == st.pending
    ensures o.st.log == st.log + [ExceptionCheck]
  {
    var c := CheckException(st);
    if c.value then
      Out(Err(Exception(st.epoch + 1)), c.st.(epoch := st.epoch + 1))
    else
      Out(Ok(Handle(kind, ptr, typ), cap), c.st)
  }

  /** `from_parts`: `from_parts_type` with the tag `Local`. */
  function FromParts(st: Runtime, kind: Kind, ptr: Ref, cap: Capability): (o: Out<ThisResult<Handle>>)
    requires cap.epoch == st.epoch
    ensures o.value.Err? <==> st.pending
    ensures o.value.Ok? ==> o.value.value == Handle(kind, ptr, Local) && o.value.cap == cap
    ensures Sound(o)
  {
    FromPartsType(st, kind, ptr, Local, cap)
  }

  /** `from_unless_null`: a null reference becomes an `Exception`,
      anything else a local handle with the capability handed back. No
      foreign call is made. */
  function FromUnlessNull(st: Runtime, kind: Kind, ptr: Ref, cap: Capability): (o: Out<ThisResult<Handle>>)
    requires cap.epoch == st.epoch
    ensures o.value.Err? <==> ptr == Null
    ensures o.value.Ok? ==> o.value.value == Handle(kind, ptr, Local) && o.value.cap == cap
    ensures o.value.Err? ==> o.value.exn.epoch == o.st.epoch == st.epoch + 1
    ensures o.value.Ok? ==> o.st == st
    ensures SameTables(o.st, st) && o.st.pending == st.pending && o.st.log == st.log
  {
    if ptr == Null then Out(Err(Exception(st.epoch + 1)), st.(epoch := st.epoch + 1))
    else Out(Ok(Handle(kind, ptr, Local), cap), st)
  }

  /** The `Exception` of `from_unless_null` is sound exactly when the call
      that produced the null reference left an exception pending. */
  lemma FromUnlessNullSound(st: Runtime, kind: Kind, ptr: Ref, cap: Capability)
    requires Holds(st, cap) || (ptr == Null && cap.epoch == st.epoch)
    ensures Sound(FromUnlessNull(st, kind, ptr, cap)) <==> (ptr != Null || st.pending)
  {
  }

  // ---------------------------------------------------------------------------
  // Reference counting: `inc_ref`, `dec_ref` and `Drop`
  // ---------------------------------------------------------------------------

  /** `inc_ref`: the new-reference call that matches the handle's tag. */
  function IncRef(st: Runtime, h: Handle, granted: bool): (o: Out<Ref>)
    ensures o.st.log == st.log + [NewCall(h.rtype, h.ptr)]
    ensures o.value != Null ==> Table(o.st, h.rtype) == Table(st, h.rtype) + multiset{o.value}
    ensures o.value == Null <==> (h.ptr == Null || !granted)
    ensures o.value == Null ==> Table(o.st, h.rtype) == Table(st, h.rtype)
    ensures o.value != Null ==> o.value == st.next + 1
    ensures OthersUnchanged(o.st, st, h.rtype)
    ensures o.st.pending == (st.pending || RefusalThrows(h.rtype, h.ptr, granted))
    ensures o.st.epoch == st.epoch && o.st.misused == st.misused
    ensures Wf(st) ==> Wf(o.st)
  {
    match h.rtype
    case Local => NewRef(st, Local, h.ptr, granted)
    case Global => NewRef(st, Global, h.ptr, granted)
    case Weak => NewRef(st, Weak, h.ptr, granted)
  }

  /** `dec_ref`: the delete call that matches the handle's tag; the other
      two tables are untouched. */
  function DecRef(st: Runtime, h: Handle): (s: Runtime)
    ensures s.log == st.log + [DeleteCall(h.rtype, h.ptr)]
    ensures h.ptr != Null && h.ptr in Table(st, h.rtype) ==>
      Table(s, h.rtype) == Table(st, h.rtype) - multiset{h.ptr} && s.misused == st.misused
    ensures !(h.ptr != Null && h.ptr in Table(st, h.rtype)) ==> Table(s, h.rtype) == Table(st, h.rtype)
    ensures OthersUnchanged(s, st, h.rtype)
    ensures s.misused <==> st.misused || (h.ptr != Null && h.ptr !in Table(st, h.rtype))
    ensures s.pending == st.pending && s.epoch == st.epoch && s.next == st.next
    ensures Wf(st) ==> Wf(s)
  {
    match h.rtype
    case Local => DeleteRef(st, Local, h.ptr)
    case Global => DeleteRef(st, Global, h.ptr)
    case Weak => DeleteRef(st, Weak, h.ptr)
  }

  /** `Drop` of the `impl_jobject!` wrappers: release the reference
      through `dec_ref`. */
  function Drop(st: Runtime, h: Handle): (s: Runtime)
    ensures s.log == st.log + [DeleteCall(h.rtype, h.ptr)]
    ensures h.ptr != Null && h.ptr in Table(st, h.rtype) ==> Table(s, h.rtype) == Table(st, h.rtype) - multiset{h.ptr}
    ensures !(h.ptr != Null && h.ptr in Table(st, h.rtype)) ==> Table(s, h.rtype) == Table(st, h.rtype)
    ensures OthersUnchanged(s, st, h.rtype)
    ensures s.misused <==> st.misused || (h.ptr != Null && h.ptr !in Table(st, h.rtype))
    ensures s.pending == st.pending && s.epoch == st.epoch && s.next == st.next
  {
    DecRef(st, h)
  }

  /** `Drop` of `JavaArray`, written out separately with the same dispatch
      on the tag; it agrees with `Drop` on every handle. */
  function ArrayDrop(st: Runtime, h: Handle): (s: Runtime)
    ensures s == Drop(st, h)
  {
    match h.rtype
    case Local => DeleteRef(st, Local, h.ptr)
    case Global => DeleteRef(st, Global, h.ptr)
    case Weak => DeleteRef(st, Weak, h.ptr)
  }

  /** A handle's reference duplicated by `inc_ref` and released by
      `dec_ref` leaves all three tables as they were. */
  lemma IncThenDecRestores(st: Runtime, h: Handle, granted: bool)
    requires Wf(st)
    ensures var o := IncRef(st, h, granted);
            var s := DecRef(o.st, Handle(h.kind, o.value, h.rtype));
            SameRefs(s, st) && s.misused == st.misused
  {
    var o := IncRef(st, h, granted);
    var s := DecRef(o.st, Handle(h.kind, o.value, h.rtype));
    if o.value != Null {
      AddThenRemove(Table(st, h.rtype), o.value);
    }
    SameRefsByTable(s, st, h.rtype);
  }

  lemma AddThenRemove(m: multiset<Ref>, x: Ref)
    ensures m + multiset{x} - multiset{x} == m
  {
  }

  /** Equal in table `t` and in the other two: equal in all three. */
  lemma SameRefsByTable(a: Runtime, b: Runtime, t: RefType)
    requires Table(a, t) == Table(b, t) && OthersUnchanged(a, b, t)
    ensures SameRefs(a, b)
  {
  }

  /** Dropping a live handle releases exactly one occurrence of its
      reference from the table its tag names, and is no misuse. */
  lemma DropRemovesFromItsTableOnly(st: Runtime, h: Handle)
    requires Wf(st) && h.ptr in Table(st, h.rtype)
    ensures Table(Drop(st, h), h.rtype)[h.ptr] == Table(st, h.rtype)[h.ptr] - 1
    ensures !Drop(st, h).misused <==> !st.misused
  {
    assert h.ptr != Null;
  }

  /** Dropping a null handle, as a refused promotion or `inc_ref` hands
      back, leaves every table as it was and is no misuse. */
  lemma DropOfNullChangesNothing(st: Runtime, h: Handle)
    requires h.ptr == Null
    ensures SameRefs(Drop(st, h), st) && Drop(st, h).misused == st.misused
  {
    SameRefsByTable(Drop(st, h), st, h.rtype);
  }

  // ---------------------------------------------------------------------------
  // `global` and `weak`
  // ---------------------------------------------------------------------------

  /** The handle a successful `global` or `weak` hands back, as written:
      `impl_jobject!` builds it with `from_parts_type` and the matching
      tag, `JavaArray` with `from_parts`, that is, tagged `Local`. */
  function PromotedTag(kind: Kind, requested: RefType): RefType
  {
    if kind == ArrayKind then Local else requested
  }

  /** `global` / `weak` as written: create the reference with
      `NewGlobalRef` / `NewWeakGlobalRef`, then wrap it; `from_parts_type`
      sees the exception a refused `NewWeakGlobalRef` throws. */
  function Promote(st: Runtime, h: Handle, t: RefType, cap: Capability, granted: bool): (o: Out<ThisResult<Handle>>)
    requires t != Local && cap.epoch == st.epoch
    ensures o.value.Ok? ==> o.value.value.rtype == PromotedTag(h.kind, t) && o.value.value.kind == h.kind
    ensures o.value.Ok? && o.value.value.ptr != Null ==> o.value.value.ptr in Table(o.st, t)
    ensures o.value.Err? <==> st.pending || RefusalThrows(t, h.ptr, granted)
    ensures Sound(o)
    ensures Wf(st) ==> Wf(o.st)
  {
    var n := NewRef(st, t, h.ptr, granted);
    FromPartsType(n.st, h.kind, n.value, PromotedTag(h.kind, t), cap)
  }

  function MakeGlobal(st: Runtime, h: Handle, cap: Capability, granted: bool): (o: Out<ThisResult<Handle>>)
    requires cap.epoch == st.epoch
    ensures o.value.Ok? ==> o.value.value.rtype == (if h.kind == ArrayKind then Local else Global)
    ensures o.value.Ok? && o.value.value.ptr != Null ==> o.value.value.ptr in o.st.globals
  {
    Promote(st, h, Global, cap, granted)
  }

  function MakeWeak(st: Runtime, h: Handle, cap: Capability, granted: bool): (o: Out<ThisResult<Handle>>)
    requires cap.epoch == st.epoch
    ensures o.value.Ok? ==> o.value.value.rtype == (if h.kind == ArrayKind then Local else Weak)
    ensures o.value.Ok? && o.value.value.ptr != Null ==> o.value.value.ptr in o.st.weaks
  {
    Promote(st, h, Weak, cap, granted)
  }

  /** The corrected `global` / `weak`: every kind, arrays included, tags
      the new handle with the table its reference was created in. */
  function PromoteFixed(st: Runtime, h: Handle, t: RefType, cap: Capability, granted: bool): (o: Out<ThisResult<Handle>>)
    requires t != Local && cap.epoch == st.epoch
    ensures o.value.Ok? ==> o.value.value.rtype == t && o.value.value.kind == h.kind
    ensures o.value.Ok? && o.value.value.ptr != Null ==> o.value.value.ptr in Table(o.st, t)
    ensures o.value.Err? <==> st.pending || RefusalThrows(t, h.ptr, granted)
    ensures Sound(o)
    ensures Wf(st) ==> Wf(o.st)
  {
    var n := NewRef(st, t, h.ptr, granted);
    FromPartsType(n.st, h.kind, n.value, t, cap)
  }

  /** As written, an array promoted with `global` or `weak` and then
      dropped releases its new reference with `DeleteLocalRef`: the
      reference stays in its global or weak table for good, and the
      runtime is asked to delete a local reference it never handed out. */
  lemma ArrayPromoteThenDropLeaks(st: Runtime, h: Handle, t: RefType, cap: Capability)
    requires Wf(st) && Holds(st, cap) && !st.misused
    requires h.kind == ArrayKind && h.ptr != Null && t != Local
    ensures var o := Promote(st, h, t, cap, true);
            o.value.Ok? &&
            var s := ArrayDrop(o.st, o.value.value);
            o.value.value.ptr in Table(s, t) && s.misused
            && s.log[|s.log| - 1] == DeleteLocalRef(o.value.value.ptr)
  {
    var n := NewRef(st, t, h.ptr, true);
    var o := Promote(st, h, t, cap, true);
    assert o.value.value.ptr == n.value == st.next + 1;
    assert n.value !in st.locals;
  }

  /** With the corrected tag, promoting any handle and dropping the
      result leaves every table as it was, with no misuse. Promotion
      fails only when a refused `NewWeakGlobalRef` throws, and then no
      table has changed. */
  lemma PromoteFixedThenDropRestores(st: Runtime, h: Handle, t: RefType, cap: Capability, granted: bool)
    requires Wf(st) && Holds(st, cap) && t != Local
    ensures var o := PromoteFixed(st, h, t, cap, granted);
            (o.value.Ok? <==> !RefusalThrows(t, h.ptr, granted))
            && (o.value.Err? ==> SameRefs(o.st, st) && o.st.misused == st.misused)
            && (o.value.Ok? ==>
                  var s := Drop(o.st, o.value.value);
                  SameRefs(s, st) && s.misused == st.misused)
  {
    var n := NewRef(st, t, h.ptr, granted);
    var o := PromoteFixed(st, h, t, cap, granted);
    assert SameRefs(o.st, n.st) && o.st.misused == n.st.misused;
    if o.value.Ok? {
      assert o.value.value == Handle(h.kind, n.value, t);
      var s := Drop(o.st, o.value.value);
      if n.value != Null {
        AddThenRemove(Table(st, t), n.value);
      }
      SameRefsByTable(s, st, t);
    } else {
      SameRefsByTable(o.st, st, t);
    }
  }

  /** For every `impl_jobject!` kind the as-written `global` / `weak` is
      the corrected one, so the restoring property above is theirs too. */
  lemma PromoteAgreesOffArrays(st: Runtime, h: Handle, t: RefType, cap: Capability, granted: bool)
    requires t != Local && cap.epoch == st.epoch && h.kind != ArrayKind
    ensures Promote(st, h, t, cap, granted) == PromoteFixed(st, h, t, cap, granted)
  {
  }

  // ---------------------------------------------------------------------------
  // `JavaEnv`
  // ---------------------------------------------------------------------------

  /** The pair `throw` and `throw_new` return. */
  datatype Thrown = Thrown(ok: bool, exn: Exception)

  /** The foreign `Throw` / `ThrowNew`: on success the exception is pending. */
  function RaiseWith(st: Runtime, c: Call, code: Native.JniError): (s: Runtime)
    ensures s.pending == (st.pending || code == Native.JniOk)
    ensures SameTables(s, st) && s.epoch == st.epoch && s.log == st.log + [c]
  {
    var st1 := Record(st, c);
    if code == Native.JniOk then st1.(pending := true) else st1
  }

  /** `throw`: consume the capability, ask the runtime to throw `obj`,
      and return whether it succeeded together with an `Exception`,
      whatever the outcome. */
  function ThrowObject(st: Runtime, obj: Handle, cap: Capability, code: Native.JniError): (o: Out<Thrown>)
    requires cap.epoch == st.epoch
    ensures o.value.ok <==> code == Native.JniOk
    ensures o.value.exn.epoch == o.st.epoch == st.epoch + 1
    ensures Holds(st, cap) ==> (Raised(o.st, o.value.exn) <==> code == Native.JniOk)
    ensures SameTables(o.st, st) && o.st.log == st.log + [Throw(obj.ptr)]
  {
    var s := RaiseWith(st, Throw(obj.ptr), code);
    Out(Thrown(code == Native.JniOk, Exception(st.epoch + 1)), s.(epoch := st.epoch + 1))
  }

  /** `throw_new`: as `throw`, constructing the throwable from a class and
      a message in modified UTF-8. */
  function ThrowNewObject(st: Runtime, clazz: Handle, msg: JChars.JavaChars, cap: Capability, code: Native.JniError): (o: Out<Thrown>)
    requires cap.epoch == st.epoch
    ensures o.value.ok <==> code == Native.JniOk
    ensures o.value.exn.epoch == o.st.epoch == st.epoch + 1
    ensures Holds(st, cap) ==> (Raised(o.st, o.value.exn) <==> code == Native.JniOk)
    ensures SameTables(o.st, st) && o.st.log == st.log + [ThrowNew(clazz.ptr, msg.contents)]
  {
    var s := RaiseWith(st, ThrowNew(clazz.ptr, msg.contents), code);
    Out(Thrown(code == Native.JniOk, Exception(st.epoch + 1)), s.(epoch := st.epoch + 1))
  }

  /** `exception_clear`: consume the `Exception`, clear whatever is
      pending, and mint a `Capability`, which is then sound. */
  function ClearException(st: Runtime, exn: Exception): (o: Out<Capability>)
    requires exn.epoch == st.epoch
    ensures Holds(o.st, o.value)
    ensures o.st.epoch == st.epoch + 1
    ensures SameTables(o.st, st) && o.st.log == st.log + [ExceptionClear]
  {
    var s := Record(st, ExceptionClear).(pending := false, epoch := st.epoch + 1);
    Out(Capability(st.epoch + 1), s)
  }

  /** The foreign `EnsureLocalCapacity`: on failure it throws
      `OutOfMemoryError`. */
  function ReserveLocals(st: Runtime, capacity: Native.Jint, code: Native.JniError): (s: Runtime)
    ensures s.pending == (st.pending || code != Native.JniOk)
    ensures SameTables(s, st) && s.epoch == st.epoch && s.log == st.log + [EnsureLocalCapacity(capacity)]
  {
    var st1 := Record(st, EnsureLocalCapacity(capacity));
    if code == Native.JniOk then st1 else st1.(pending := true)
  }

  /** `ensure_local_capacity`: the `isize` is cast to `jint` (keeping its
      low 32 bits); the same capability comes back iff the runtime
      answers `JNI_OK`. */
  function EnsureCapacity(st: Runtime, capacity: Native.Isize, cap: Capability, code: Native.JniError): (o: Out<ThisResult<()>>)
    requires cap.epoch == st.epoch
    ensures o.value.Ok? <==> code == Native.JniOk
    ensures o.value.Ok? ==> o.value.cap == cap
    ensures o.st.log == st.log + [EnsureLocalCapacity(Native.ToJint(capacity))]
    ensures Holds(st, cap) ==> Sound(o)
    ensures SameTables(o.st, st)
  {
    var s := ReserveLocals(st, Native.ToJint(capacity), code);
    if code == Native.JniOk then Out(Ok((), cap), s)
    else Out(Err(Exception(st.epoch + 1)), s.(epoch := st.epoch + 1))
  }

  /** `find_class`: the foreign `FindClass` followed by `from_unless_null`. */
  function FindClassByName(st: Runtime, name: JChars.JavaChars, cap: Capability, found: bool): (o: Out<ThisResult<Handle>>)
    requires cap.epoch == st.epoch
    ensures o.value.Ok? <==> found
    ensures o.value.Ok? ==> o.value.cap == cap && o.value.value.kind == ClassKind && o.value.value.rtype == Local
    ensures o.value.Ok? ==> o.value.value.ptr == o.st.next == st.next + 1
    ensures o.value.Ok? ==> o.st.locals == st.locals + multiset{o.value.value.ptr}
    ensures o.st.globals == st.globals && o.st.weaks == st.weaks && o.st.misused == st.misused
    ensures o.value.Err? ==> o.st.locals == st.locals && o.st.next == st.next
    ensures o.st.log == st.log + [FindClass(name.contents)]
    ensures Holds(st, cap) ==> Sound(o)
    ensures Wf(st) ==> Wf(o.st)
  {
    var f := NewLocalOrThrow(st, FindClass(name.contents), found);
    FromUnlessNull(f.st, ClassKind, f.value, cap)
  }

  /** `alloc_object`: the foreign `AllocObject` followed by `from_unless_null`. */
  function AllocObjectOf(st: Runtime, clazz: Handle, cap: Capability, created: bool): (o: Out<ThisResult<Handle>>)
    requires cap.epoch == st.epoch
    ensures o.value.Ok? <==> created
    ensures o.value.Ok? ==> o.value.cap == cap && o.value.value.kind == ObjectKind && o.value.value.rtype == Local
    ensures o.value.Ok? ==> o.value.value.ptr == o.st.next == st.next + 1
    ensures o.value.Ok? ==> o.st.locals == st.locals + multiset{o.value.value.ptr}
    ensures o.st.globals == st.globals && o.st.weaks == st.weaks && o.st.misused == st.misused
    ensures o.value.Err? ==> o.st.locals == st.locals && o.st.next == st.next
    ensures o.st.log == st.log + [AllocObject(clazz.ptr)]
    ensures Holds(st, cap) ==> Sound(o)
    ensures Wf(st) ==> Wf(o.st)
  {
    var f := NewLocalOrThrow(st, AllocObject(clazz.ptr), created);
    FromUnlessNull(f.st, ObjectKind, f.value, cap)
  }

  /** The handle `find_class` or `alloc_object` returns holds a
      reference that no table held before the call. */
  lemma NewLocalHandlesAreFresh(st: Runtime, name: JChars.JavaChars, clazz: Handle, cap: Capability, succeeded: bool)
    requires Wf(st) && cap.epoch == st.epoch
    ensures var f := FindClassByName(st, name, cap, succeeded);
            f.value.Ok? ==> f.value.value.ptr !in st.locals + st.globals + st.weaks
    ensures var a := AllocObjectOf(st, clazz, cap, succeeded);
            a.value.Ok? ==> a.value.value.ptr !in st.locals + st.globals + st.weaks
  {
  }

  /** A successful `throw` followed by `exception_clear` gives back a
      sound capability over the same tables. */
  lemma ThrowThenClear(st: Runtime, obj: Handle, cap: Capability)
    requires Holds(st, cap)
    ensures var t := ThrowObject(st, obj, cap, Native.JniOk);
            Raised(t.st, t.value.exn) &&
            var c := ClearException(t.st, t.value.exn);
            Holds(c.st, c.value) && SameTables(c.st, st) && c.value != cap
  {
  }
}

=== FILE: jni_vm.dfy ===
/**
 The invocation side of the bindings: the start-up arguments, creating
 a virtual machine, obtaining an environment for the current thread, and
 destroying the machine.

 The foreign calls `JNI_CreateJavaVM`, `GetEnv`, `AttachCurrentThread`
 (or its daemon variant) and `DestroyJavaVM` are recorded in a log;
 what they return is a parameter. A raw pointer is a `nat`, 0 being null.
 */
module JavaVm {
  import opened Wrappers
  import Native
  import Jni

  // ---------------------------------------------------------------------------
  // Start-up arguments
  // ---------------------------------------------------------------------------

  /** `JavaVMOption`: an option string and an opaque extra-info pointer. */
  datatype JavaVMOption = JavaVMOption(optionString: string, extraInfo: nat)

  /** `JavaVMOption::new_extra`. */
  function NewOptionExtra(option: string, extra: nat): (o: JavaVMOption)
    ensures o.optionString == option && o.extraInfo == extra
  {
    JavaVMOption(option, extra)
  }

  /** `JavaVMOption::new`: no extra information (a null pointer). */
  function NewOption(option: string): (o: JavaVMOption)
    ensures o.optionString == option && o.extraInfo == 0
  {
    NewOptionExtra(option, 0)
  }

  /** `PartialEq<&str>` in both directions: an option equals a string iff
      its option string does. */
  predicate OptionIs(o: JavaVMOption, s: string)
  {
    o.optionString == s
  }

  /** An option built from a string equals exactly that string, whatever
      its extra information, and the comparison is the same whichever
      side the string is on. */
  lemma OptionEqualsOnlyItsString(option: string, extra: nat, s: string)
    ensures OptionIs(NewOptionExtra(option, extra), s) <==> option == s
    ensures OptionIs(NewOptionExtra(option, extra), s) <==> s == NewOptionExtra(option, extra).optionString
  {
  }

  /** `JavaVMInitArgs`. */
  datatype JavaVMInitArgs = JavaVMInitArgs(
    version: Native.JniVersion,
    options: seq<JavaVMOption>,
    ignoreUnrecognized: bool)

  /** `JavaVMInitArgs::new`: the options are copied in order. */
  function NewInitArgs(version: Native.JniVersion, options: seq<JavaVMOption>, ignoreUnrecognized: bool): (a: JavaVMInitArgs)
    ensures a.version == version && a.options == options && a.ignoreUnrecognized == ignoreUnrecognized
  {
    JavaVMInitArgs(version, options, ignoreUnrecognized)
  }

  /** The option constructor, on the strings its unit test uses. */
  lemma OptionConstructorExamples()
    ensures forall s | s in ["", "-Xcheck:jni", "a"] ::
      NewOption(s).extraInfo == 0 && NewOption(s).optionString == s && OptionIs(NewOption(s), s)
  {
  }

  /** The arguments constructor, on the values its unit test uses. */
  lemma InitArgsConstructorExample()
    ensures var a := NewInitArgs(Native.Version1_6, [NewOption("-Xcheck:jni"), NewOption("-ea")], false);
            !a.ignoreUnrecognized && a.version == Native.Version1_6 && |a.options| == 2
            && OptionIs(a.options[0], "-Xcheck:jni") && OptionIs(a.options[1], "-ea")
  {
  }

  // ---------------------------------------------------------------------------
  // The C structures handed to `JNI_CreateJavaVM`
  // ---------------------------------------------------------------------------

  /** The text of a `CString`: characters without NUL, the terminator
      being implicit. A NUL character is the only thing whose UTF-8 form
      contains a zero byte, so checking characters is checking bytes. */
  type CText = s: string | '\0' !in s

  /** `CString::new`: fails (`NulError`) iff the string contains NUL. */
  function NewCString(s: string): (r: Option<CText>)
    ensures r.Some? <==> '\0' !in s
    ensures r.Some? ==> r.value == s
  {
    if '\0' in s then None else var t: CText := s; Some(t)
  }

  datatype JavaVMOptionImpl = JavaVMOptionImpl(optionString: CText, extraInfo: nat)

  datatype JavaVMInitArgsImpl = JavaVMInitArgsImpl(
    version: Native.JniVersion,
    nOptions: Native.Jint,
    options: seq<JavaVMOptionImpl>,
    ignoreUnrecognized: int)      // a `jboolean`

  /** True iff `CString::new` would refuse some option string. */
  predicate SomeOptionHasNul(options: seq<JavaVMOption>)
  {
    exists k :: 0 <= k < |options| && '\0' in options[k].optionString
  }

  function ConvertOption(o: JavaVMOption): JavaVMOptionImpl
    requires '\0' !in o.optionString
  {
    JavaVMOptionImpl(o.optionString, o.extraInfo)
  }

  /** The arguments `JavaVM::new` builds, or `None` where the `unwrap` of
      `CString::new` panics. */
  function Marshal(args: JavaVMInitArgs): (r: Option<JavaVMInitArgsImpl>)
  {
    if SomeOptionHasNul(args.options) then None
    else Some(JavaVMInitArgsImpl(
      args.version,
      Native.ToJint(|args.options|),
      seq(|args.options|, k requires 0 <= k < |args.options| => ConvertOption(args.options[k])),
      if args.ignoreUnrecognized then 1 else 0))
  }

  /** The loop of `JavaVM::new` that converts the options one by one; it
      stops (panics) at the first option string containing NUL. */
  method MarshalArgs(args: JavaVMInitArgs) returns (r: Option<JavaVMInitArgsImpl>)
    ensures r.None? <==> SomeOptionHasNul(args.options)
    ensures r.Some? ==> r.value.nOptions == Native.ToJint(|args.options|)
    ensures r.Some? ==> |r.value.options| == |args.options|
    ensures r.Some? ==> forall k :: 0 <= k < |args.options| ==>
      r.value.options[k].optionString == args.options[k].optionString
      && r.value.options[k].extraInfo == args.options[k].extraInfo
    ensures r == Marshal(args)
  {
    var opts: seq<JavaVMOptionImpl> := [];
    var i := 0;
    while i < |args.options|
      invariant 0 <= i <= |args.options|
      invariant |opts| == i
      invariant forall k :: 0 <= k < i ==> '\0' !in args.options[k].optionString
      invariant forall k :: 0 <= k < i ==> opts[k] == ConvertOption(args.options[k])
    {
      var c := NewCString(args.options[i].optionString);
      if c.None? {
        assert '\0' in args.options[i].optionString;
        return None;
      }
      opts := opts + [JavaVMOptionImpl(c.value, args.options[i].extraInfo)];
      i := i + 1;
    }
    var flag := if args.ignoreUnrecognized then 1 else 0;
    assert opts == seq(|args.options|, k requires 0 <= k < |args.options| => ConvertOption(args.options[k]));
    r := Some(JavaVMInitArgsImpl(args.version, Native.ToJint(|args.options|), opts, flag));
  }

  /** What the virtual machine reads back from the C structure: `nOptions`
      entries of the array, and any non-zero `jboolean` as true. */
  function Unmarshal(a: JavaVMInitArgsImpl): Option<JavaVMInitArgs>
  {
    if 0 <= a.nOptions <= |a.options| then
      Some(JavaVMInitArgs(
        a.version,
        seq(a.nOptions, k requires 0 <= k < a.nOptions && a.nOptions <= |a.options| =>
          JavaVMOption(a.options[k].optionString, a.options[k].extraInfo)),
        a.ignoreUnrecognized != 0))
    else None
  }

  /** The virtual machine reads back exactly the arguments it was given:
      version, every option in order, and the flag, as long as the count
      fits in a `jint`. */
  lemma MarshalRoundTrip(args: JavaVMInitArgs)
    requires !SomeOptionHasNul(args.options)
    requires |args.options| < 0x8000_0000
    ensures Marshal(args).Some?
    ensures Unmarshal(Marshal(args).value) == Some(args)
  {
    var a := Marshal(args).value;
    Native.ToJintIdentity(|args.options|);
    assert a.nOptions == |args.options|;
    var back := Unmarshal(a).value;
    assert |back.options| == |args.options|;
    forall k | 0 <= k < |args.options|
      ensures back.options[k] == args.options[k]
    {
    }
    assert back.options == args.options;
  }

  // ---------------------------------------------------------------------------
  // The virtual machine
  // ---------------------------------------------------------------------------

  /** `JavaVM`: the machine pointer, the version asked for, and the name
      under which threads are attached. */
  datatype JavaVM = JavaVM(ptr: nat, version: Native.JniVersion, name: string)

  /** Which attach function `get_env_gen` was handed. */
  datatype AttachFn = AttachCurrentThread | AttachCurrentThreadAsDaemon

  /** A foreign call of the invocation interface. */
  datatype VmCall =
    | CreateJavaVM(args: JavaVMInitArgsImpl)
    | GetEnv(version: Native.JniVersion)
    | Attach(fun: AttachFn, version: Native.JniVersion, name: string)
    | DestroyJavaVM(ptr: nat)

  /** The runtime of a freshly created virtual machine, and its first
      capability. */
  function InitialRuntime(): (st: Jni.Runtime)
    ensures Jni.Wf(st) && Jni.Holds(st, Jni.Capability(0))
    ensures !st.pending && !st.misused && st.log == []
    ensures st.locals == multiset{} && st.globals == multiset{} && st.weaks == multiset{}
  {
    Jni.Runtime(false, multiset{}, multiset{}, multiset{}, 0, false, 0, [])
  }

  datatype Created =
    | Created(vm: JavaVM, cap: Jni.Capability, calls: seq<VmCall>)
    | Failed(err: Native.JniError, calls: seq<VmCall>)
    | Panicked

  /** `JavaVM::new`: marshal the arguments, call `JNI_CreateJavaVM`
      (which answers `code` and the machine pointer `ptr`), and return the
      machine with a capability iff the answer is `JNI_OK`. */
  function NewVm(args: JavaVMInitArgs, name: string, code: Native.JniError, ptr: nat): (r: Created)
    ensures r.Panicked? <==> SomeOptionHasNul(args.options)
    ensures r.Created? <==> !SomeOptionHasNul(args.options) && code == Native.JniOk
    ensures r.Failed? ==> r.err == code
    ensures r.Created? ==> r.vm == JavaVM(ptr, args.version, name)
    ensures r.Created? ==> Jni.Holds(InitialRuntime(), r.cap)
    ensures !r.Panicked? ==> r.calls == [CreateJavaVM(Marshal(args).value)]
  {
    match Marshal(args)
    case None => Panicked
    case Some(a) =>
      if code == Native.JniOk then Created(JavaVM(ptr, args.version, name), Jni.Capability(0), [CreateJavaVM(a)])
      else Failed(code, [CreateJavaVM(a)])
  }

  /** The start-up in the unit test of `JavaEnv`: the machine reports the
      version it was created with. */
  lemma NewVmExample(ptr: nat)
    ensures var r := NewVm(NewInitArgs(Native.Version1_6, [NewOption("-Xcheck:jni")], false), "1", Native.JniOk, ptr);
            r.Created? && r.vm.version == Native.Version1_6
  {
    var opts := [NewOption("-Xcheck:jni")];
    assert !SomeOptionHasNul(opts) by {
      assert '\0' !in opts[0].optionString;
    }
  }

  // ---------------------------------------------------------------------------
  // Environments
  // ---------------------------------------------------------------------------

  datatype EnvResult = EnvOk(env: nat) | EnvErr(err: Native.JniError)

  /** The result, the calls made, and whether the thread is attached afterwards. */
  datatype EnvOut = EnvOut(result: EnvResult, calls: seq<VmCall>, attached: bool)

  /** `GetEnv` tells the truth about the calling thread: `JNI_OK` only
      for an attached thread, `JNI_EDETACHED` only for a detached one. */
  predicate GetEnvReports(attached: bool, getEnvCode: Native.JniError)
  {
    (getEnvCode == Native.JniOk ==> attached)
    && (getEnvCode == Native.JniEDetached ==> !attached)
  }

  /** `get_env_gen`: ask `GetEnv`; if the thread is detached, attach it
      once with `fun` and return what that answers. `getEnvCode` and
      `attachCode` are the two answers, `env` the environment pointer the
      successful call writes. */
  function GetEnvGen(vm: JavaVM, attached: bool, fun: AttachFn,
                     getEnvCode: Native.JniError, attachCode: Native.JniError, env: nat): (o: EnvOut)
    requires GetEnvReports(attached, getEnvCode)
    ensures o.result.EnvOk? ==> o.attached
    ensures attached ==> |o.calls| == 1
    ensures |o.calls| >= 1 && o.calls[0] == GetEnv(vm.version)
    ensures getEnvCode == Native.JniOk ==> o.result == EnvOk(env) && |o.calls| == 1
    ensures getEnvCode == Native.JniEDetached ==>
      o.calls == [GetEnv(vm.version), Attach(fun, vm.version, vm.name)]
      && (o.result.EnvOk? <==> attachCode == Native.JniOk)
      && (o.result.EnvErr? ==> o.result.err == attachCode)
    ensures getEnvCode !in {Native.JniOk, Native.JniEDetached} ==>
      o.result == EnvErr(getEnvCode) && |o.calls| == 1
    ensures o.attached <==> attached || (getEnvCode == Native.JniEDetached && attachCode == Native.JniOk)
  {
    var ask := [GetEnv(vm.version)];
    if getEnvCode == Native.JniOk then EnvOut(EnvOk(env), ask, attached)
    else if getEnvCode == Native.JniEDetached then
      var calls := ask + [Attach(fun, vm.version, vm.name)];
      if attachCode == Native.JniOk then EnvOut(EnvOk(env), calls, true)
      else EnvOut(EnvErr(attachCode), calls, attached)
    else EnvOut(EnvErr(getEnvCode), ask, attached)
  }

  function AttachCount(calls: seq<VmCall>): nat
  {
    if calls == [] then 0 else (if calls[0].Attach? then 1 else 0) + AttachCount(calls[1..])
  }

  /** `get_env_gen` attaches at most once, and only when `GetEnv` said
      the thread was detached; an environment comes back only from a
      successful call. */
  lemma GetEnvGenAttachesAtMostOnce(vm: JavaVM, attached: bool, fun: AttachFn,
                                    getEnvCode: Native.JniError, attachCode: Native.JniError, env: nat)
    requires GetEnvReports(attached, getEnvCode)
    ensures var o := GetEnvGen(vm, attached, fun, getEnvCode, attachCode, env);
            AttachCount(o.calls) == (if getEnvCode == Native.JniEDetached then 1 else 0)
            && (attached ==> AttachCount(o.calls) == 0)
            && (o.result.EnvOk? <==> getEnvCode == Native.JniOk
                                     || (getEnvCode == Native.JniEDetached && attachCode == Native.JniOk))
  {
    var o := GetEnvGen(vm, attached, fun, getEnvCode, attachCode, env);
    var tail := [Attach(fun, vm.version, vm.name)];
    assert AttachCount(tail) == 1 by {
      assert tail[1..] == [];
    }
    if getEnvCode == Native.JniEDetached {
      assert o.calls[1..] == tail;
    } else {
      assert o.calls[1..] == [];
    }
  }

  // ---------------------------------------------------------------------------
  // Destruction
  // ---------------------------------------------------------------------------

  datatype Destroyed = Destroyed(err: Native.JniError, vm: JavaVM, calls: seq<VmCall>)

  /** `destroy_java_vm`: nothing to do for a null machine; otherwise call
      `DestroyJavaVM` (which answers `code`) and null the pointer. */
  function DestroyVm(vm: JavaVM, code: Native.JniError): (d: Destroyed)
    ensures vm.ptr == 0 ==> d == Destroyed(Native.JniOk, vm, [])
    ensures vm.ptr != 0 ==> d.err == code && d.calls == [DestroyJavaVM(vm.ptr)]
    ensures d.vm == vm.(ptr := 0)
  {
    if vm.ptr == 0 then Destroyed(Native.JniOk, vm, [])
    else Destroyed(code, vm.(ptr := 0), [DestroyJavaVM(vm.ptr)])
  }

  /** A second destruction is a no-op, whatever the runtime would answer. */
  lemma DestroyIdempotent(vm: JavaVM, code1: Native.JniError, code2: Native.JniError)
    ensures var d1 := DestroyVm(vm, code1);
            var d2 := DestroyVm(d1.vm, code2);
            d2 == Destroyed(Native.JniOk, d1.vm, [])
  {
  }

  datatype DropOutcome = Dropped(calls: seq<VmCall>) | DropPanicked(err: Native.JniError)

  /** `Drop for JavaVM`: destroy, and panic iff that did not answer `JNI_OK`. */
  function DropVm(vm: JavaVM, code: Native.JniError): (r: DropOutcome)
    ensures r.DropPanicked? <==> vm.ptr != 0 && code != Native.JniOk
    ensures r.DropPanicked? ==> r.err == code
    ensures r.Dropped? ==> r.calls == (if vm.ptr == 0 then [] else [DestroyJavaVM(vm.ptr)])
  {
    var d := DestroyVm(vm, code);
    if d.err != Native.JniOk then DropPanicked(d.err) else Dropped(d.calls)
  }

  /** Dropping a machine already destroyed never panics and calls nothing. */
  lemma DropAfterDestroyIsQuiet(vm: JavaVM, code1: Native.JniError, code2: Native.JniError)
    ensures DropVm(DestroyVm(vm, code1).vm, code2) == Dropped([])
  {
  }
}

=== FILE: native.dfy ===
/**
 The two plain enumerations the bindings borrow from the C interface of
 the Java Native Interface: the version numbers a caller asks for and the
 status codes every invocation-interface call returns. Their numeric
 values are those of `jni.h`.
 */
module Native {
  import opened Wrappers

  /** `JniVersion`: the interface version required of the virtual machine. */
  datatype JniVersion = Version1_1 | Version1_2 | Version1_4 | Version1_6 | Version1_7 | Version1_8

  /** The `jint` value each version stands for. */
  function VersionCode(v: JniVersion): int
  {
    match v
    case Version1_1 => 0x00010001
    case Version1_2 => 0x00010002
    case Version1_4 => 0x00010004
    case Version1_6 => 0x00010006
    case Version1_7 => 0x00010007
    case Version1_8 => 0x00010008
  }

  /** Declaration order: the derived `PartialOrd` compares versions in
      the order they are listed. */
  function VersionRank(v: JniVersion): nat
  {
    match v
    case Version1_1 => 0
    case Version1_2 => 1
    case Version1_4 => 2
    case Version1_6 => 3
    case Version1_7 => 4
    case Version1_8 => 5
  }

  const MinJniVersion: int := VersionCode(Version1_1)
  const MaxJniVersion: int := VersionCode(Version1_8)

  /** The declared order and the numeric order agree, so comparing two
      versions by rank is comparing their codes; every code lies between
      the minimum and the maximum version. */
  lemma VersionOrderMatchesCodes(v: JniVersion, w: JniVersion)
    ensures VersionRank(v) < VersionRank(w) <==> VersionCode(v) < VersionCode(w)
    ensures VersionCode(v) == VersionCode(w) ==> v == w
    ensures MinJniVersion <= VersionCode(v) <= MaxJniVersion
  {
  }

  /** `JniError`: the status of an invocation-interface call. */
  datatype JniError =
    | JniOk          // success
    | JniErr         // unknown error
    | JniEDetached   // thread detached from the VM
    | JniEVersion    // JNI version error
    | JniENoMem      // not enough memory
    | JniEExist      // VM already created
    | JniEInval      // invalid arguments

  function ErrorCode(e: JniError): int
  {
    match e
    case JniOk => 0
    case JniErr => -1
    case JniEDetached => -2
    case JniEVersion => -3
    case JniENoMem => -4
    case JniEExist => -5
    case JniEInval => -6
  }

  /** The status a returned `jint` stands for, if any. */
  function ErrorOfCode(n: int): (r: Option<JniError>)
    ensures r.Some? <==> -6 <= n <= 0
    ensures r.Some? ==> ErrorCode(r.value) == n
  {
    if n == 0 then Some(JniOk)
    else if n == -1 then Some(JniErr)
    else if n == -2 then Some(JniEDetached)
    else if n == -3 then Some(JniEVersion)
    else if n == -4 then Some(JniENoMem)
    else if n == -5 then Some(JniEExist)
    else if n == -6 then Some(JniEInval)
    else None
  }

  /** Codes and statuses are in one-to-one correspondence: only success is
      zero, every failure is negative. */
  lemma ErrorCodeRoundTrip(e: JniError)
    ensures ErrorOfCode(ErrorCode(e)) == Some(e)
    ensures (ErrorCode(e) == 0) == (e == JniOk)
    ensures e != JniOk ==> ErrorCode(e) < 0
  {
  }

  // ---------------------------------------------------------------------------
  // Fixed-width integers
  // ---------------------------------------------------------------------------

  const JintModulus: int := 0x1_0000_0000

  /** A `jint`: a 32-bit signed integer. */
  type Jint = n: int | -0x8000_0000 <= n < 0x8000_0000

  /** A Rust `isize`, 64 bits wide on the platforms the bindings target. */
  type Isize = n: int | -0x8000_0000_0000_0000 <= n < 0x8000_0000_0000_0000

  /** `n as jint`: keep the low 32 bits of the two's-complement value. */
  function ToJint(n: int): (r: Jint)
    ensures (r - n) % JintModulus == 0
  {
    var low := n % JintModulus;
    if low < 0x8000_0000 then low else low - JintModulus
  }

  /** The cast changes exactly the values that do not fit. */
  lemma ToJintIdentity(n: int)
    ensures ToJint(n) == n <==> -0x8000_0000 <= n < 0x8000_0000
  {
  }
}

=== FILE: utf8.dfy ===
/**
 The host side of the codec: Unicode scalar values and their standard
 UTF-8 encoding, as defined in section 3 of RFC 3629. This is the byte
 form in which the host language stores its strings, and the reference
 against which the runtime's Modified UTF-8 is compared.

 A host character is a Unicode scalar value: a 32-bit value of at most
 10FFFF that is not a surrogate (D800..DFFF). The encoding below is
 written with division and remainder rather than shifts and masks, so
 that it is independent of the shift-and-mask code it is used to check.
 */
module Utf8 {

  type byte = bv8

  /** A host character: a Unicode scalar value. */
  type Scalar = v: bv32 | v <= 0x10FFFF && !(0xD800 <= v <= 0xDFFF)

  /** A host string: a sequence of Unicode scalar values. */
  type Text = seq<Scalar>

  /** True iff `b` has the form 10xxxxxx. */
  predicate IsContinuation(b: byte) {
    0x80 <= b <= 0xBF
  }

  /** The low byte of a value known to fit in one byte. */
  function Low(x: bv32): byte
    requires x < 256
  {
    x as byte
  }

  /** The UTF-8 encoding of one Unicode scalar value (RFC 3629, section 3):
      the value's bits are spread over a lead byte that announces the
      sequence length and up to three continuation bytes of six bits each. */
  function EncodeScalar(v: Scalar): (r: seq<byte>)
    ensures |r| == (if v < 0x80 then 1 else if v < 0x800 then 2 else if v < 0x10000 then 3 else 4)
    ensures forall k :: 1 <= k < |r| ==> IsContinuation(r[k])
    ensures v < 0x80 ==> r[0] as bv32 == v
    ensures 0x80 <= v < 0x800 ==> 0xC2 <= r[0] <= 0xDF
    ensures 0x800 <= v < 0x10000 ==> 0xE0 <= r[0] <= 0xEF && (r[0] == 0xED ==> r[1] < 0xA0)
    ensures 0x10000 <= v ==> 0xF0 <= r[0] <= 0xF4
  {
    if v < 0x80 then
      [Low(v)]
    else if v < 0x800 then
      [Low(0xC0 + v / 64), Low(0x80 + v % 64)]
    else if v < 0x10000 then
      [Low(0xE0 + v / 4096), Low(0x80 + v / 64 % 64), Low(0x80 + v % 64)]
    else
      [Low(0xF0 + v / 262144), Low(0x80 + v / 4096 % 64),
       Low(0x80 + v / 64 % 64), Low(0x80 + v % 64)]
  }

  /** The UTF-8 encoding of a host string: the encodings of its characters, in order. */
  function Encode(s: Text): (r: seq<byte>)
    ensures |r| >= |s|
    ensures (forall k :: 0 <= k < |s| ==> s[k] != 0) ==> 0 !in r
  {
    if s == [] then [] else EncodeScalar(s[0]) + Encode(s[1..])
  }
}

=== FILE: wrappers.dfy ===
/** The optional value used across the model. */
module Wrappers {
  datatype Option<T> = None | Some(value: T)
}
